=== FILE: README.md ===
# ts-practice-app core, modelled in Dafny

ts-practice-app is a browser app for practising TypeScript. It has three
cores, and this project models all of them.

**The test harness** is `executeCode` in src/utils/testRunner.ts. It works in
five steps:

1. It transpiles a submission once.
2. It finds the entry point with the first match of `function\s+(\w+)`.
3. For every test case, it builds a small program that calls the entry point
   with the case's input text spliced in. It runs that program through
   `new Function`.
4. It renders the returned value as text:
   - `undefined` and `null` by name;
   - arrays and objects as compact JSON;
   - BigInts with an `n`;
   - anything else through `String`.
5. It compares that text with the expected output, after a whitespace-tolerant
   normalisation.

The TypeScript compiler and the JavaScript engine are parameters of the model,
so every property below holds for every behaviour they might have. The engine
(`TestRunner.Engine`) is split along the statements of the generated program:

- parsing the whole text;
- the submission's own top-level statements;
- the `typeof` guard;
- the call.

**The progress store** has three implementations over one abstract contract
(`ProgressContract`: a set of solved ids and a points total, where only a
first mark awards points):

- the localStorage store of src/utils/progress.ts;
- the SQL store of src/db/database.ts;
- the HTTP routes of server.js, over the same two SQL tables.

**The catalog queries** of src/data/index.ts are modelled over any sequence of
challenges: find by id, filter by category or difficulty, distinct categories
and total points.

The modules are:

- `Wrappers`: `Option` and `Result`.
- `Seqs`: generic helpers — first match, filter, dedupe, sum.
- `JsText`: the `\s` and `\w` classes, `trim` and `join`.
- `Normalize`: `normalizeForComparison` and the pass rule.
- `Numerals`: decimal text of integers.
- `JsonString`: QuoteJSONString.
- `JsValues`: values and rendering.
- `EntryPoint`: the entry-point scanner.
- `Challenges`: the types of src/types/challenge.ts.
- `TestRunner`: the harness.
- `ProgressContract`, `LocalProgress`, `ProgressTables`, `ProgressDb` and
  `ProgressServer`: the progress stores.
- `Catalog`: the catalog queries.

## Model

| member | source | states |
|---|---|---|
| TestRunner.ExecuteCode | src/utils/testRunner.ts:20-124 | There is one result per test case, in input order. Each result echoes its case's id, input and expected output. A result with an error has failed and shows no output. When the compiler throws, every case carries that message behind "TypeScript compilation error: ". The results are those of running each case on its own. |
| TestRunner.FailAll | src/utils/testRunner.ts:25-37 | On the compile-fault path every case gets the same faulted result, and there is one per case. |
| TestRunner.RunAll | src/utils/testRunner.ts:43-121 | The loop pushes exactly one result per iteration, and result i is the result of case i. |
| TestRunner.RunCase | src/utils/testRunner.ts:44-120 | A case's result echoes the case. It has no error exactly when the program returned and the value rendered. It then shows the rendered text and passed exactly when that text and the expected text normalise alike. |
| TestRunner.RunProgram | src/utils/testRunner.ts:46-63 | A parse fault occurs exactly when `new Function` rejects the program text, and carries its message. Otherwise, if the submission's own top-level code returns or throws, that decides the outcome. If it falls through, the entry point is called only when the `typeof` guard holds, and the program returns undefined otherwise. |
| TestRunner.CaseIsolation | src/utils/testRunner.ts:43-121 | A case's result depends only on the submission, the engine and that case. Other cases, and their faults, do not affect it. |
| TestRunner.CompileFaultReachesEveryCase | src/utils/testRunner.ts:25-37 | If transpilation throws, every case fails with the prefixed message and an empty output. |
| TestRunner.NoFaultMeansJudged | src/utils/testRunner.ts:100-110 | A returned, renderable value gives a result without error whose pass verdict is the normalised comparison. |
| TestRunner.FaultMeansFailed | src/utils/testRunner.ts:62-120 | Three faults each become that case's error, with passed false and empty output: a parse fault (outer catch, the message), a throw (inner catch, the shown value), and a BigInt inside a returned aggregate (outer catch, JSON.stringify's message). |
| TestRunner.NoEntryPointYieldsUndefined | src/utils/testRunner.ts:40-54 | Take a transpiled text with no match of the entry-point pattern, and a program that parses and whose top-level code falls through. The `typeof null` guard then fails, and the case renders "undefined" without an error. This assumes the input stays inside the call's parentheses. |
| TestRunner.ProgramDeterminesInput | src/utils/testRunner.ts:46-55 | The input is spliced in verbatim: two inputs give the same program text exactly when they are equal. |
| TestRunner.EmptyInputCallsWithoutArguments | src/utils/testRunner.ts:51 | An empty input yields the zero-argument call `name()` right where the program head ends. |
| EntryPoint.FindEntryPoint | src/utils/testRunner.ts:40-41 | There is no entry point exactly when the pattern matches nowhere. Otherwise the name is a non-empty run of word characters, captured at a matching position. |
| EntryPoint.FirstMatch | src/utils/testRunner.ts:40 | It finds the leftmost matching position at or after the start, or reports that none exists. |
| EntryPoint.CaptureAt | src/utils/testRunner.ts:41 | The captured group is non-empty and made of word characters. |
| EntryPoint.MatchesAtIffRegex | src/utils/testRunner.ts:40 | The scanner's test at a position holds exactly when some split of the text there satisfies `function\s+(\w+)`. |
| EntryPoint.RegexSplitIsGreedy | src/utils/testRunner.ts:40 | Any split satisfying the pattern uses the whole whitespace run, and its name is a prefix of the captured one. |
| EntryPoint.CaptureIsMaximal | src/utils/testRunner.ts:40-41 | The captured name is itself a valid split, and no word character follows it. |
| EntryPoint.LeftmostMatchWins | src/utils/testRunner.ts:40-41 | When the pattern first occurs at i, the runner calls the name captured at i. |
| EntryPoint.NoWordBoundaryExample | src/utils/testRunner.ts:40 | With no word boundary before `function`, the text "myfunction go" yields the entry point "go". |
| JsValues.Render | src/utils/testRunner.ts:77-88 | Rendering fails only for an array or object containing a BigInt, with V8's message. Otherwise: undefined and null render by name; a boolean as `true` or `false`; a string raw; an integer as its canonical numeral (no leading zero, never `-0`) that reads back as it, and that text is unique by Numerals.CanonicalNumeralUnique; a BigInt as its canonical numeral followed by "n"; aggregates as their JSON. |
| JsValues.Serialize | src/utils/testRunner.ts:83 | JSON.stringify yields nothing exactly for undefined, and throws exactly when a BigInt occurs anywhere in the value. Otherwise: null gives `null`; a boolean gives `true` or `false`; an integer gives its canonical numeral, which reads back as it; a string gives a JSON string literal that an independent reader decodes back to exactly that string. An array gives `[`, its element texts joined by `,`, then `]`, and an object gives the same with braces around its member texts. |
| JsValues.SerializeNoWs | src/utils/testRunner.ts:83 | Compact JSON has no whitespace between tokens: a value whose strings and member names hold no whitespace serialises to text without any. |
| JsValues.QuoteNoWs | src/utils/testRunner.ts:83 | Quoting adds no whitespace and escapes TAB, LF, VT, FF and CR. So a string whose only whitespace characters are control characters quotes to text without whitespace. |
| JsValues.RenderNoWs | src/utils/testRunner.ts:77-88 | Every rendering of a value whose strings and member names hold no whitespace is free of whitespace. |
| TestRunner.WsFreeValueJudgedVerbatim | src/utils/testRunner.ts:77-102 | For a returned value whose strings and member names hold no whitespace, normalisation leaves the rendered text unchanged. The case then passed exactly when the expected text normalises to that very text. |
| JsValues.SerializeElements | src/utils/testRunner.ts:83 | An array yields texts unless some element holds a BigInt. Text i is `null` when element i is undefined, and otherwise element i's own JSON. |
| JsValues.SerializeMembers | src/utils/testRunner.ts:83 | An object yields one text per member whose value is not undefined, unless some member holds a BigInt. |
| JsValues.MemberTextsInOrder | src/utils/testRunner.ts:83 | The member texts are, in property order, `"key":value` (the quoted key, a colon and the value's JSON) for exactly the members whose value is not undefined. |
| JsValues.StringsShadowOtherValues | src/utils/testRunner.ts:78-87 | Strings are rendered unquoted, so "null", "undefined" and "1267n" cannot be told apart from null, undefined and 1267n. |
| JsValues.BigIntExample | src/data/challenges/math.ts:92 | The BigInt 1267 renders as `1267n`. |
| JsValues.UndefinedMemberExample | src/data/challenges/arrays.ts:128 | `{value: undefined, index: -1}` renders as `{"index":-1}`. |
| JsValues.CompactArrayExample | src/data/challenges/arrays.ts:31 | `[2, 4, 6]` as a value renders compactly as `[2,4,6]`. |
| Numerals.DecimalRoundTrip | src/utils/testRunner.ts:85-87 | The decimal text of every integer reads back as that integer. |
| Numerals.DecimalIsCanonical | src/utils/testRunner.ts:85-87 | The decimal text of an integer has no leading zero and is never `-0`. |
| Numerals.CanonicalNumeralUnique | src/utils/testRunner.ts:85-87 | The decimal text is the only canonical numeral that reads as its integer. |
| Numerals.DecimalInjective | src/utils/testRunner.ts:85-87 | Different integers never share a decimal text. |
| JsonString.QuoteRoundTrip | src/utils/testRunner.ts:83 | Reading back a quoted JSON string gives exactly the original characters, and stops right after the closing quote. |
| JsonString.QuoteInjective | src/utils/testRunner.ts:83 | Different strings never share a JSON quoting. |
| Normalize.PassesIffSameNorm | src/utils/testRunner.ts:100-102 | The three-way pass rule holds exactly when both sides normalise to the same text. |
| Normalize.Norm | src/utils/testRunner.ts:94-97 | `normalizeForComparison` keeps every non-whitespace character, in order, and leaves text without whitespace unchanged. |
| Normalize.Passes | src/utils/testRunner.ts:100-102 | The three-way comparison holds exactly when both texts normalise to the same text. |
| Normalize.PassesIsEquivalence | src/utils/testRunner.ts:100-102 | The pass rule is reflexive, symmetric and transitive. |
| Normalize.NormKeepsVisible | src/utils/testRunner.ts:96 | Normalisation never adds, drops or reorders a non-whitespace character. |
| Normalize.PassingSharesVisibleText | src/utils/testRunner.ts:100-102 | A passing result shows the same non-whitespace characters, in order, as the expected text. |
| Normalize.NormOfNoWs | src/utils/testRunner.ts:96 | Text without whitespace is left unchanged by normalisation. |
| Normalize.NormOfNormal | src/utils/testRunner.ts:96 | Normalisation leaves text in normal form unchanged. Normal form means trimmed, single spaces only, and no space after `[`, `,`, `:` or before `]`. |
| Normalize.NormalTextsMismatch | src/utils/testRunner.ts:100-102 | Two different texts in normal form never pass against each other. |
| Normalize.NormOfBracketClean | src/utils/testRunner.ts:96 | On trimmed, single-spaced text with no space inside brackets, only the comma and colon replacements change anything. |
| Normalize.CommaSpaceDropped | src/utils/testRunner.ts:96 | The comma replacement deletes the space in `, ` that follows whitespace-free text. |
| Normalize.CommaSpacesTolerated | src/utils/testRunner.ts:96-102 | Single-spaced text passes against the compact text the comma replacement makes of it. |
| Normalize.SpaceAfterCommaPasses | src/data/challenges/arrays.ts:31 | The output `[2,4,6]` passes against the expected `[2, 4, 6]`. |
| Normalize.SpaceBeforeCommaMismatches | src/utils/testRunner.ts:96 | A space before a comma is not tolerated. |
| Normalize.SpaceInsideBracesMismatches | src/utils/testRunner.ts:96 | Spaces inside braces are not tolerated. |
| JsText.Trim | src/utils/testRunner.ts:96 | `trim` yields a slice of its input with whitespace only outside it, and the slice neither starts nor ends with whitespace. |
| Challenges.CategoryNameInjective | src/types/challenge.ts:3-19 | The sixteen category names are distinct. |
| Challenges.DifficultyNameInjective | src/types/challenge.ts:1 | The three difficulty names are distinct. |
| ProgressContract.AwardIdempotent | src/utils/progress.ts:17-25 | Marking the same id again, with any points, changes nothing, and the id is solved after the first mark. |
| ProgressContract.ReplayAwardsEachIdOnce | src/utils/progress.ts:17-25 | Start from nothing and apply any sequence of marks. Exactly the marked ids are then solved, and the total adds up each id's first award only. |
| LocalProgress.MarkSolved | src/utils/progress.ts:17-25 | The call returns what a later read sees, and the id is then listed. A listed id leaves the store untouched. An unlisted id is appended at the end and its points are added. |
| LocalProgress.GetProgress | src/utils/progress.ts:5-11 | A stored record is read as it is. With nothing stored the read is the empty default, with no ids and 0 points. |
| LocalProgress.IsSolved | src/utils/progress.ts:27-30 | An id is solved exactly when it is in the stored list, so nothing is solved when nothing is stored. |
| LocalProgress.MarkFollowsAward | src/utils/progress.ts:17-25 | The local store follows the common contract. |
| LocalProgress.MarkTwiceIsMarkOnce | src/utils/progress.ts:19-24 | A second mark, whatever its points, neither writes nor awards anything. |
| LocalProgress.MarkThenSolved | src/utils/progress.ts:17-30 | After a mark the id reads as solved, and every id solved before still reads as solved. |
| LocalProgress.MarkKeepsDistinct | src/utils/progress.ts:19-20 | A list without repeats stays without repeats. |
| LocalProgress.ResetForgetsEverything | src/utils/progress.ts:32-34 | After a reset, reads see the empty default and no id is solved. |
| LocalProgress.ReplayListsFirstMarks | src/utils/progress.ts:17-25 | From an empty store, the list is the marked ids without repeats, in first-mark order. |
| LocalProgress.ReplayTotalsFirstAwards | src/utils/progress.ts:17-25 | From an empty store, the total is the sum of each id's first points. |
| LocalProgress.ReplayAgreesWithContract | src/utils/progress.ts:17-25 | Any sequence of local marks agrees with the contract's replay. |
| ProgressTables.ApplySchema | src/db/database.ts:5-27 | The schema keeps every existing row. It creates the progress row with total 0 only when that row is missing. |
| ProgressTables.RowFor | src/db/database.ts:197-206 | A lookup finds nothing exactly when no row has that id. Otherwise it finds a row with that id. |
| ProgressTables.MarkTables | src/db/database.ts:131-161 | After a mark the id has a row. A new id gets one appended row with its points, its time and one attempt, and the points are added to the total. A known id keeps the same ids and the same progress row. |
| ProgressTables.FreshTables | src/db/database.ts:93-100 | A fresh store satisfies the schema's constraints, has no solved rows, and has a total of 0. |
| ProgressTables.SchemaRerunIsHarmless | server.js:28-32 | Running the schema again changes nothing. |
| ProgressTables.MarkNewAddsRow | src/db/database.ts:137-149 | A first mark appends one row for the id, with its points and one attempt, and adds the points to the total. |
| ProgressTables.MarkAgainCountsAttempt | src/db/database.ts:151-158 | A later mark adds one attempt to that id's row. Its points and time stay the same, and no other row or the total changes. |
| ProgressTables.MarkKeepsConsistent | src/db/database.ts:135-141 | Marking keeps challenge_id unique, attempts at least 1, and the progress row present. |
| ProgressTables.ClearKeepsConsistent | src/db/database.ts:182-189 | Clearing keeps the constraints and leaves no id solved. |
| ProgressTables.MarkFollowsAward | src/db/database.ts:131-161 | On consistent tables, marking follows the common contract. |
| ProgressTables.AttemptsCountMarks | src/db/database.ts:131-158 | Mark an unsolved id any number of times, with any points and times. There is then one new row, with the first mark's points and time and one attempt per mark, and only the first mark's points were awarded. |
| ProgressTables.DetailsCountMarks | src/db/database.ts:192-211 | After a run of marks of an unsolved id, the lookup of that id finds its row with the first mark's time and points and one attempt per mark. |
| ProgressTables.MarkRecordsId | src/db/database.ts:131-161 | Marking records the id, keeps the constraints and follows the common contract. |
| ProgressDb.InitDatabase | src/db/database.ts:82-103 | A saved database is used as it is. Otherwise the store starts consistent, with no rows and a total of 0. |
| ProgressDb.IsSolvedDb | src/db/database.ts:122-128 | An id is solved exactly when some row has it, which is exactly when the row lookup finds one. |
| ProgressDb.GetProgressDb | src/db/database.ts:164-179 | The listed ids are exactly the solved ones, without repeats on a consistent store. The total is the progress row's, or 0 when that row is missing. |
| ProgressDb.MarkSolvedDb | src/db/database.ts:131-161 | The call returns a fresh read of the updated store, and the id is then solved. It keeps the constraints and follows the common contract. |
| ProgressDb.ResetProgressDb | src/db/database.ts:182-189 | After a reset the progress reads as empty with total 0, and no id is solved. |
| ProgressDb.GetChallengeDetails | src/db/database.ts:192-211 | The details are null exactly when the id has no row. Otherwise they are that row's solved time and attempts. |
| ProgressDb.RepeatedSolvesCountAttempts | src/db/database.ts:137-158 | Solving an unsolved challenge several times, with any points and times, reports the first solve's time and one attempt per solve, and awards only the first solve's points. |
| ProgressServer.Boot | server.js:28-32 | Start-up keeps all rows and ensures the progress row. On an already consistent database it changes nothing. |
| ProgressServer.GetProgressRoute | server.js:39-53 | The progress route changes nothing. It lists exactly the ids that have a row, each once on consistent tables, and answers the progress row's total, or 0 when that row is missing. |
| ProgressServer.StatusRoute | server.js:56-66 | `solved` holds exactly when the id is in the progress list, and exactly when the details route finds a row. |
| ProgressServer.SolveRoute | server.js:69-105 | The solve route answers with what the progress route would then answer, and the id is then solved. On consistent tables it keeps the constraints and follows the common contract, with missing or falsy points read as 0. |
| ProgressServer.ResetRoute | server.js:108-117 | The reset route answers success, and leaves no rows and a total of 0. |
| ProgressServer.DetailsRoute | server.js:120-135 | The details route gives null exactly when the id has no row. Otherwise it gives that row's solved time and attempts. |
| ProgressServer.SolveWithoutPointsAwardsNothing | server.js:72-85 | A solve with missing or zero points records the id but leaves the total unchanged. |
| ProgressServer.SolveAgainKeepsTotal | server.js:86-90 | Solving a solved id leaves the total and the list of ids unchanged. |
| ProgressServer.ServerAgreesWithBrowserStore | server.js:69-135 | For solve, reset, details and status, the server and the in-browser SQL store change the tables alike and report the same data. |
| Catalog.AllChallengesIsConcatenation | src/data/index.ts:15-28 | The catalog is the twelve lists, whole and in the listed order, so its length is the sum of their lengths. |
| Catalog.GetChallengeById | src/data/index.ts:30-32 | It returns nothing exactly when no challenge has the id. Otherwise it returns the first challenge with that id. |
| Catalog.EarlierEntryWins | src/data/index.ts:30-32 | When an id occurs in an earlier list, a later list cannot change the lookup. |
| Catalog.ByCategory | src/data/index.ts:34-36 | Every selected challenge has the requested category. |
| Catalog.ByCategoryIsExact | src/data/index.ts:34-36 | The selection is an order-preserving subsequence of the catalog. It holds each challenge of that category exactly as often as the catalog does, and nothing else. |
| Catalog.UnknownCategorySelectsNothing | src/data/index.ts:34-36 | A string that names no category selects nothing. |
| Catalog.ByDifficulty | src/data/index.ts:38-40 | Every selected challenge has the requested difficulty. |
| Catalog.ByDifficultyIsExact | src/data/index.ts:38-40 | The selection is an order-preserving subsequence of the catalog. It holds each challenge of that difficulty exactly as often as the catalog does, and nothing else. |
| Catalog.Categories | src/data/index.ts:42-44 | Every category that occurs is listed, each exactly once, and nothing else is. |
| Catalog.CategoriesInFirstOccurrenceOrder | src/data/index.ts:42-44 | Categories are listed in the order of their first challenge. |
| Catalog.TotalPointsNonNegative | src/data/index.ts:46-48 | The total is non-negative when every entry's points are. |
| Catalog.TotalPoints | src/data/index.ts:46-48 | The left-to-right reduce from 0 equals the sum of the points column. |
| Catalog.TotalPointsConcat | src/data/index.ts:46-48 | Totals add up across joined lists. |
| Seqs.Dedupe | src/data/index.ts:43 | The result has no repeats and holds exactly the elements of the input. |
| Seqs.DedupeFirstOccurrenceOrder | src/data/index.ts:43 | `[...new Set(xs)]` keeps elements in the order of their first occurrence. |
| Seqs.FilterIsExact | src/data/index.ts:35 | A filter keeps exactly the passing elements, with their multiplicities and order. |
| Seqs.SumConcat | src/data/index.ts:47 | A left-to-right sum splits over concatenation. |

## Left out

- The TypeScript compiler: `transpile` is a parameter that yields the output text or the shown error.
- The JavaScript engine: `Engine` is a parameter. Left out with it are:
  - real evaluation;
  - globals leaking between cases;
  - the lack of a timeout;
  - a `typeof` on a name in its temporal dead zone.
- JsValues.Render: covers integral Numbers of magnitude at most 2^53 only, where `String` prints the integer's own digits. Left out: larger integral Numbers, which `String` prints as the shortest round-trip digits padded with zeros (`String(2**60)` is `"1152921504606847000"`); exponent notation from 10^21; fractions, NaN and the infinities. These need floating-point formatting.
- JsValues.Render: covers plain arrays and objects of the modelled kinds only. Left out are `toJSON`, functions and symbols inside aggregates, circular structures and Promises. A Promise renders as `{}`.
- JsValues.Serialize: a BigInt nested inside an aggregate is the only throw modelled.
- TestRunner.RunProgram: the case input is assumed to be an argument list that stays inside the call's parentheses, as every catalog input is. An input such as `0); } return 7; { (0` would be pasted into the program and change its statements, and the engine split does not model that.
- TestRunner.NoEntryPointYieldsUndefined: holds only for inputs that stay inside the call's parentheses, for the same reason. An input that closes the call and returns a value gives another result.
- JsValues.Render: a function or Symbol returned at the top level is left out. `String` prints a function's source text and a Symbol as `Symbol(description)`, and `Value` has no case for either.
- JsValues.Render: strings hold Unicode scalar values, so a lone UTF-16 surrogate cannot be represented. JSON.stringify escapes such a surrogate as `\uXXXX`, and that case is left out.
- TestRunner.RunCase: the thrown value's `String(e)` and `e.message` are taken as given text.
- LocalProgress.GetProgress: the stored entry is taken as either absent or a well-formed progress record. Left out are `JSON.parse` of a corrupted or empty entry, and the storage API.
- ProgressDb.IsSolvedDb: plain membership. The source interpolates the id into the SQL text, which breaks for ids containing a quote.
- ProgressDb.GetProgressDb: lists ids in insertion order, but the contract states only membership and uniqueness. The query has no ORDER BY.
- ProgressDb.InitDatabase: loading sql.js, IndexedDB and persisting after every change are left out. A saved copy found at start-up is a parameter.
- ProgressServer.Boot: server.js reads its schema from a file that is not part of this model. It is taken to be the schema embedded in src/db/database.ts.
- ProgressServer.PointsOrZero: any falsy `points` value, not only a missing one, is the `None` case. Its type is otherwise integral, and non-integral points are not modelled.
- Express, CORS, the 500 error paths and logging in server.js.
- The AUTOINCREMENT row id of `solved_challenges`: no query reads it.
- `exportDatabase` and `getSolvedChallenges` in src/db/database.ts. No property is stated about them beyond what `SolvedIds` gives.
- The catalog's own entries under src/data/challenges/ are static data. The queries are modelled over any list, and a few test cases appear as concrete lemmas.
- The React components, the Header's percentage and src/db/index.ts (re-exports only).

=== FILE: catalog.dfy ===
/** The catalog queries of src/data/index.ts, over any list of challenges:
    the catalog's own entries are static data and are not part of this
    model. */
module Catalog {
  import opened Wrappers
  import opened Seqs
  import opened Challenges

  /** The twelve per-topic lists the catalog is assembled from. */
  datatype Sources = Sources(
    introduction: seq<Challenge>,
    strings: seq<Challenge>,
    arrays: seq<Challenge>,
    sets: seq<Challenge>,
    maps: seq<Challenge>,
    math: seq<Challenge>,
    classes: seq<Challenge>,
    regex: seq<Challenge>,
    promises: seq<Challenge>,
    functionals: seq<Challenge>,
    errors: seq<Challenge>,
    builtIns: seq<Challenge>)

  /** The lists in the order allChallenges spreads them. */
  function Lists(src: Sources): (ls: seq<seq<Challenge>>)
    ensures |ls| == 12
  {
    [src.introduction, src.strings, src.arrays, src.sets, src.maps, src.math,
     src.classes, src.regex, src.promises, src.functionals, src.errors, src.builtIns]
  }

  /** Lists joined end to end. */
  function Flatten<T>(ls: seq<seq<T>>): seq<T> {
    if ls == [] then [] else ls[0] + Flatten(ls[1..])
  }

  function Lengths<T>(ls: seq<seq<T>>): (ns: seq<int>)
    ensures |ns| == |ls|
  {
    seq(|ls|, i requires 0 <= i < |ls| => |ls[i]|)
  }

  /** allChallenges (lines 15-28). */
  function AllChallenges(src: Sources): seq<Challenge> {
    src.introduction + src.strings + src.arrays + src.sets + src.maps + src.math
    + src.classes + src.regex + src.promises + src.functionals + src.errors + src.builtIns
  }

  lemma {:induction false} FlattenLength<T>(ls: seq<seq<T>>)
    ensures |Flatten(ls)| == Sum(Lengths(ls))
  {
    if ls != [] {
      FlattenLength(ls[1..]);
      assert Lengths(ls) == [|ls[0]|] + Lengths(ls[1..]);
      SumConcat([|ls[0]|], Lengths(ls[1..]));
      assert Sum([|ls[0]|]) == |ls[0]| by {
        assert [|ls[0]|][..0] == [];
      }
    }
  }

  /** The catalog is the twelve lists, whole and in order, so its length is
      the sum of theirs. */
  lemma AllChallengesIsConcatenation(src: Sources)
    ensures AllChallenges(src) == Flatten(Lists(src))
    ensures |AllChallenges(src)| == Sum(Lengths(Lists(src)))
  {
    var ls := Lists(src);
    assert Flatten(ls[12..]) == [];
    assert Flatten(ls[11..]) == ls[11];
    assert Flatten(ls[10..]) == ls[10] + Flatten(ls[11..]);
    assert Flatten(ls[9..]) == ls[9] + Flatten(ls[10..]);
    assert Flatten(ls[8..]) == ls[8] + Flatten(ls[9..]);
    assert Flatten(ls[7..]) == ls[7] + Flatten(ls[8..]);
    assert Flatten(ls[6..]) == ls[6] + Flatten(ls[7..]);
    assert Flatten(ls[5..]) == ls[5] + Flatten(ls[6..]);
    assert Flatten(ls[4..]) == ls[4] + Flatten(ls[5..]);
    assert Flatten(ls[3..]) == ls[3] + Flatten(ls[4..]);
    assert Flatten(ls[2..]) == ls[2] + Flatten(ls[3..]);
    assert Flatten(ls[1..]) == ls[1] + Flatten(ls[2..]);
    assert ls[1..][1..] == ls[2..];
    assert Flatten(ls) == ls[0] + Flatten(ls[1..]);
    FlattenLength(ls);
  }

  /** getChallengeById (lines 30-32): the first challenge with that id. */
  function GetChallengeById(cs: seq<Challenge>, id: string): (r: Option<Challenge>)
    ensures r.None? <==> forall i :: 0 <= i < |cs| ==> cs[i].id != id
    ensures r.Some? ==> exists i :: 0 <= i < |cs| && cs[i] == r.value && cs[i].id == id
                                    && forall j :: 0 <= j < i ==> cs[j].id != id
  {
    match FirstWhere(cs, (c: Challenge) => c.id == id)
    case Some(i) => Some(cs[i])
    case None => None
  }

  /** When ids repeat across lists, the earlier list's entry wins. */
  lemma EarlierEntryWins(a: seq<Challenge>, b: seq<Challenge>, id: string)
    requires GetChallengeById(a, id).Some?
    ensures GetChallengeById(a + b, id) == GetChallengeById(a, id)
  {
    FirstWhereInPrefix(a, b, (c: Challenge) => c.id == id);
  }

  function CategoryTest(category: string): Challenge -> bool {
    (c: Challenge) => CategoryName(c.category) == category
  }

  function DifficultyTest(difficulty: string): Challenge -> bool {
    (c: Challenge) => DifficultyName(c.difficulty) == difficulty
  }

  /** getChallengesByCategory (lines 34-36); the category arrives as a
      string. */
  function ByCategory(cs: seq<Challenge>, category: string): (r: seq<Challenge>)
    ensures forall i :: 0 <= i < |r| ==> CategoryName(r[i].category) == category
  {
    Filter(cs, CategoryTest(category))
  }

  /** getChallengesByDifficulty (lines 38-40). */
  function ByDifficulty(cs: seq<Challenge>, difficulty: string): (r: seq<Challenge>)
    ensures forall i :: 0 <= i < |r| ==> DifficultyName(r[i].difficulty) == difficulty
  {
    Filter(cs, DifficultyTest(difficulty))
  }

  /** Exactly the challenges of that category, each as often as in the
      catalog, in catalog order. */
  lemma ByCategoryIsExact(cs: seq<Challenge>, category: string)
    ensures IsSubsequence(ByCategory(cs, category), cs)
    ensures forall c :: multiset(ByCategory(cs, category))[c] ==
              if CategoryName(c.category) == category then multiset(cs)[c] else 0
  {
    FilterIsExact(cs, CategoryTest(category));
  }

  lemma ByDifficultyIsExact(cs: seq<Challenge>, difficulty: string)
    ensures IsSubsequence(ByDifficulty(cs, difficulty), cs)
    ensures forall c :: multiset(ByDifficulty(cs, difficulty))[c] ==
              if DifficultyName(c.difficulty) == difficulty then multiset(cs)[c] else 0
  {
    FilterIsExact(cs, DifficultyTest(difficulty));
  }

  /** A string that names no category selects nothing. */
  lemma UnknownCategorySelectsNothing(cs: seq<Challenge>, category: string)
    requires forall k: Category :: CategoryName(k) != category
    ensures ByCategory(cs, category) == []
  {
    assert forall i :: 0 <= i < |cs| ==> !CategoryTest(category)(cs[i]);
    FilterNoneSelected(cs, CategoryTest(category));
  }

  /** Each category's name, one per challenge, in catalog order. */
  function CategoryColumn(cs: seq<Challenge>): (names: seq<string>)
    ensures |names| == |cs|
  {
    seq(|cs|, i requires 0 <= i < |cs| => CategoryName(cs[i].category))
  }

  /** getCategories (lines 42-44): the categories that occur, once each. */
  function Categories(cs: seq<Challenge>): (r: seq<string>)
    ensures Distinct(r)
    ensures forall i :: 0 <= i < |cs| ==> CategoryName(cs[i].category) in r
    ensures forall i :: 0 <= i < |r| ==> exists j :: 0 <= j < |cs| && CategoryName(cs[j].category) == r[i]
  {
    var names := CategoryColumn(cs);
    var r := Dedupe(names);
    assert forall i :: 0 <= i < |cs| ==> names[i] == CategoryName(cs[i].category);
    r
  }

  /** The categories come in the order of their first challenge. */
  lemma CategoriesInFirstOccurrenceOrder(cs: seq<Challenge>)
    ensures forall i, j :: 0 <= i < j < |Categories(cs)| ==>
              FirstIndex(CategoryColumn(cs), Categories(cs)[i]) < FirstIndex(CategoryColumn(cs), Categories(cs)[j])
  {
    DedupeFirstOccurrenceOrder(CategoryColumn(cs));
  }

  /** Each challenge's points, in catalog order. */
  function PointsColumn(cs: seq<Challenge>): (ps: seq<int>)
    ensures |ps| == |cs|
  {
    seq(|cs|, i requires 0 <= i < |cs| => cs[i].points)
  }

  /** The reduce of getTotalPoints: each entry's points added to the running
      sum, from the left. */
  function ReducePoints(sum: int, cs: seq<Challenge>): int
    decreases cs
  {
    if cs == [] then sum else ReducePoints(sum + cs[0].points, cs[1..])
  }

  lemma {:induction false} ReduceIsSum(sum: int, cs: seq<Challenge>)
    ensures ReducePoints(sum, cs) == sum + Sum(PointsColumn(cs))
    decreases cs
  {
    if cs != [] {
      ReduceIsSum(sum + cs[0].points, cs[1..]);
      var x := cs[0].points;
      assert PointsColumn(cs) == [x] + PointsColumn(cs[1..]);
      SumConcat([x], PointsColumn(cs[1..]));
      assert Sum([x]) == x by {
        assert [x][..0] == [];
      }
    }
  }

  /** getTotalPoints (lines 46-48): the reduce from 0 is the sum of the
      points column. */
  function TotalPoints(cs: seq<Challenge>): (r: int)
    ensures r == Sum(PointsColumn(cs))
  {
    ReduceIsSum(0, cs);
    ReducePoints(0, cs)
  }

  lemma TotalPointsNonNegative(cs: seq<Challenge>)
    requires forall i :: 0 <= i < |cs| ==> cs[i].points >= 0
    ensures TotalPoints(cs) >= 0
  {
    SumNonNegative(PointsColumn(cs));
  }

  /** Points add up across joined lists. */
  lemma TotalPointsConcat(a: seq<Challenge>, b: seq<Challenge>)
    ensures TotalPoints(a + b) == TotalPoints(a) + TotalPoints(b)
  {
    assert PointsColumn(a + b) == PointsColumn(a) + PointsColumn(b);
    SumConcat(PointsColumn(a), PointsColumn(b));
  }
}

=== FILE: challenge.dfy ===
/** The records the application passes around (src/types/challenge.ts). */
module Challenges {
  import opened Wrappers

  datatype Difficulty = Easy | Medium | Hard

  /** The string literal each difficulty is written as. */
  function DifficultyName(d: Difficulty): string {
    match d
    case Easy => "easy"
    case Medium => "medium"
    case Hard => "hard"
  }

  datatype Category =
    | Introduction
    | BasicDataTypes
    | Strings
    | Arrays
    | Sets
    | Maps
    | MathCategory
    | Iterators
    | DateTime
    | Errors
    | Classes
    | Interfaces
    | BuiltIns
    | Functionals
    | Regex
    | Promises

  /** The string literal each category is written as. */
  function CategoryName(c: Category): string {
    match c
    case Introduction => "introduction"
    case BasicDataTypes => "basic-data-types"
    case Strings => "strings"
    case Arrays => "arrays"
    case Sets => "sets"
    case Maps => "maps"
    case MathCategory => "math"
    case Iterators => "iterators"
    case DateTime => "date-time"
    case Errors => "errors"
    case Classes => "classes"
    case Interfaces => "interfaces"
    case BuiltIns => "built-ins"
    case Functionals => "functionals"
    case Regex => "regex"
    case Promises => "promises"
  }

  /** Distinct categories are written differently, so comparing the strings
      compares the categories. */
  lemma CategoryNameInjective(a: Category, b: Category)
    ensures CategoryName(a) == CategoryName(b) <==> a == b
  {
  }

  lemma DifficultyNameInjective(a: Difficulty, b: Difficulty)
    ensures DifficultyName(a) == DifficultyName(b) <==> a == b
  {
  }

  datatype TestCase = TestCase(id: string, input: string, expectedOutput: string, isHidden: Option<bool>)

  /** `points` is a whole number in every catalog entry; `successRate` is a
      percentage shown by the interface only. */
  datatype Challenge = Challenge(
    id: string,
    title: string,
    difficulty: Difficulty,
    category: Category,
    description: string,
    starterCode: string,
    testCases: seq<TestCase>,
    solution: string,
    points: int,
    successRate: real)

  /** `error` is absent (None) exactly when the case ran to a comparison. */
  datatype TestResult = TestResult(
    testId: string,
    passed: bool,
    input: string,
    expectedOutput: string,
    actualOutput: string,
    error: Option<string>)

  datatype UserProgress = UserProgress(solvedChallenges: seq<string>, totalPoints: int)
}

=== FILE: entry_point.dfy ===
/** How the test runner finds the function to call in the transpiled code
    (src/utils/testRunner.ts, lines 40-41): the first match of the regular
    expression `function\s+(\w+)`, whose group is the function's name.
    There is no word boundary in front of `function`, so the keyword is also
    found inside longer words, strings and comments. */
module EntryPoint {
  import opened Wrappers
  import opened JsText

  const Keyword: string := "function"

  predicate AllWordChars(s: string) {
    forall i :: 0 <= i < |s| ==> IsWordChar(s[i])
  }

  /** The length of the run of word characters that starts `s`. */
  function WordRunLength(s: string): (n: nat)
    ensures n <= |s|
    ensures forall i :: 0 <= i < n ==> IsWordChar(s[i])
    ensures n == |s| || !IsWordChar(s[n])
  {
    if s == [] || !IsWordChar(s[0]) then 0 else 1 + WordRunLength(s[1..])
  }

  /** The regular expression can match at `i` by letting `\s+` take `k`
      characters and `(\w+)` capture `name`: any such split, not only the one
      the engine reports. */
  ghost predicate RegexMatch(s: string, i: int, k: int, name: string) {
    && 0 <= i
    && 1 <= k
    && 1 <= |name|
    && i + |Keyword| + k + |name| <= |s|
    && s[i..i + |Keyword|] == Keyword
    && AllWs(s[i + |Keyword|..i + |Keyword| + k])
    && AllWordChars(name)
    && s[i + |Keyword| + k..i + |Keyword| + k + |name|] == name
  }

  /** The scanner's test at one position: the keyword, then whitespace, then
      a word character. */
  predicate MatchesAt(s: string, i: nat) {
    && i + |Keyword| <= |s|
    && s[i..i + |Keyword|] == Keyword
    && var rest := s[i + |Keyword|..];
       var k := WsRunLength(rest);
       1 <= k < |rest| && IsWordChar(rest[k])
  }

  /** The group the engine reports at a matching position: greedy `\s+`,
      then greedy `\w+`. */
  function CaptureAt(s: string, i: nat): (name: string)
    requires MatchesAt(s, i)
    ensures 1 <= |name|
    ensures AllWordChars(name)
  {
    var rest := s[i + |Keyword|..];
    var k := WsRunLength(rest);
    rest[k..k + WordRunLength(rest[k..])]
  }

  /** The first matching position at or after `from`. */
  function FirstMatch(s: string, from: nat): (r: Option<nat>)
    requires from <= |s|
    ensures r.Some? ==> from <= r.value < |s| && MatchesAt(s, r.value)
    ensures r.Some? ==> forall j :: from <= j < r.value ==> !MatchesAt(s, j)
    ensures r.None? ==> forall j :: from <= j < |s| ==> !MatchesAt(s, j)
    decreases |s| - from
  {
    if from == |s| then None
    else if MatchesAt(s, from) then Some(from)
    else FirstMatch(s, from + 1)
  }

  /** `fnName` of the runner: the group of the first match, or nothing. */
  function FindEntryPoint(js: string): (r: Option<string>)
    ensures r.None? <==> forall i :: 0 <= i < |js| ==> !MatchesAt(js, i)
    ensures r.Some? ==> 1 <= |r.value| && AllWordChars(r.value)
    ensures r.Some? ==> exists i :: 0 <= i < |js| && MatchesAt(js, i) && r.value == CaptureAt(js, i)
  {
    match FirstMatch(js, 0)
    case None => None
    case Some(i) => Some(CaptureAt(js, i))
  }

  /** The scanner's test agrees with the regular expression: a position
      matches exactly when some split of the text satisfies the pattern. */
  lemma MatchesAtIffRegex(s: string, i: nat)
    ensures MatchesAt(s, i) <==> exists k, name :: RegexMatch(s, i, k, name)
  {
    if MatchesAt(s, i) {
      var rest := s[i + |Keyword|..];
      var k := WsRunLength(rest);
      var name := CaptureAt(s, i);
      assert s[i + |Keyword|..i + |Keyword| + k] == rest[..k];
      assert s[i + |Keyword| + k..i + |Keyword| + k + |name|] == name;
      assert RegexMatch(s, i, k, name);
    }
    if exists k, name :: RegexMatch(s, i, k, name) {
      var k, name :| RegexMatch(s, i, k, name);
      RegexSplitIsGreedy(s, i, k, name);
    }
  }

  /** Whatever split satisfies the pattern at `i`, the whitespace part is the
      whole whitespace run, and the name is a prefix of the maximal word run
      the engine captures. */
  lemma RegexSplitIsGreedy(s: string, i: nat, k: int, name: string)
    requires RegexMatch(s, i, k, name)
    ensures MatchesAt(s, i)
    ensures k == WsRunLength(s[i + |Keyword|..])
    ensures name <= CaptureAt(s, i)
  {
    var rest := s[i + |Keyword|..];
    var n := WsRunLength(rest);
    assert rest[k] == name[0] by {
      assert s[i + |Keyword| + k..i + |Keyword| + k + |name|][0] == name[0];
    }
    WordCharIsNotWs(name[0]);
    assert MatchesAt(s, i);
    var tail := rest[k..];
    assert name <= tail by {
      forall j | 0 <= j < |name|
        ensures tail[j] == name[j]
      {
        assert tail[j] == s[i + |Keyword| + k..i + |Keyword| + k + |name|][j];
      }
    }
    WordRunCoversWordPrefix(tail, name);
  }

  /** A word-character prefix lies inside the leading word run. */
  lemma {:induction false} WordRunCoversWordPrefix(t: string, p: string)
    requires p <= t && AllWordChars(p)
    ensures |p| <= WordRunLength(t)
    ensures p <= t[..WordRunLength(t)]
  {
    if p != [] {
      assert t[0] == p[0];
      assert p[1..] <= t[1..];
      WordRunCoversWordPrefix(t[1..], p[1..]);
    }
  }

  /** The captured name is the longest the pattern allows at that position:
      it is itself a split, and no word character follows it. */
  lemma CaptureIsMaximal(s: string, i: nat)
    requires MatchesAt(s, i)
    ensures RegexMatch(s, i, WsRunLength(s[i + |Keyword|..]), CaptureAt(s, i))
    ensures var e := i + |Keyword| + WsRunLength(s[i + |Keyword|..]) + |CaptureAt(s, i)|;
            e == |s| || !IsWordChar(s[e])
  {
    var rest := s[i + |Keyword|..];
    var k := WsRunLength(rest);
    var name := CaptureAt(s, i);
    var e := i + |Keyword| + k + |name|;
    assert s[i + |Keyword|..i + |Keyword| + k] == rest[..k];
    assert s[i + |Keyword| + k..e] == name;
    if e < |s| {
      assert s[e] == rest[k..][|name|];
    }
  }

  /** Leftmost-first: when the pattern first occurs at `i`, the runner calls
      the name captured there. */
  lemma LeftmostMatchWins(js: string, i: nat, k: int, name: string)
    requires RegexMatch(js, i, k, name)
    requires forall j, k', name' :: 0 <= j < i ==> !RegexMatch(js, j, k', name')
    ensures MatchesAt(js, i)
    ensures FindEntryPoint(js) == Some(CaptureAt(js, i))
    ensures name <= CaptureAt(js, i)
  {
    RegexSplitIsGreedy(js, i, k, name);
    forall j | 0 <= j < i
      ensures !MatchesAt(js, j)
    {
      MatchesAtIffRegex(js, j);
    }
    assert FirstMatch(js, 0) == Some(i);
  }

  /** The keyword is found inside a longer identifier (no word boundary). */
  lemma NoWordBoundaryExample()
    ensures FindEntryPoint("myfunction go") == Some("go")
  {
    var s := "myfunction go";
    assert !MatchesAt(s, 0) && !MatchesAt(s, 1) by {
      assert s[0..8] != Keyword by { assert s[0] == 'm'; }
      assert s[1..9] != Keyword by { assert s[1] == 'y'; }
    }
    var rest := s[10..];
    assert rest == " go";
    assert WsRunLength(rest[1..]) == 0;
    assert WsRunLength(rest) == 1;
    assert s[2..10] == Keyword;
    assert MatchesAt(s, 2);
    assert FirstMatch(s, 0) == Some(2) by {
      assert FirstMatch(s, 2) == Some(2);
      assert FirstMatch(s, 1) == FirstMatch(s, 2);
    }
    assert rest[1..] == "go";
    assert WordRunLength(rest[1..][2..]) == 0;
    assert WordRunLength(rest[1..][1..]) == 1;
    assert WordRunLength(rest[1..]) == 2;
    assert CaptureAt(s, 2) == rest[1..][..2];
    assert rest[1..][..2] == "go";
    assert FindEntryPoint(s) == Some(CaptureAt(s, 2));
  }
}

=== FILE: js_text.dfy ===
/** Character classes and string helpers of the JavaScript runtime that the
    test runner leans on: the `\s` and `\w` regular-expression classes and
    `String.prototype.trim`. */
module JsText {

  /** `\s` in a JavaScript regular expression, and the set `trim` removes:
      WhiteSpace (TAB, VT, FF, ZWNBSP and every Zs space) plus LineTerminator
      (LF, CR, LS, PS), per sections 12.2 and 12.3 of ECMA-262. */
  predicate IsWs(c: char) {
    if c < '\U{0080}' then c == ' ' || '\t' <= c <= '\r'
    else
      || c == '\U{00A0}' || c == '\U{1680}' || ('\U{2000}' <= c <= '\U{200A}')
      || c == '\U{2028}' || c == '\U{2029}' || c == '\U{202F}' || c == '\U{205F}'
      || c == '\U{3000}' || c == '\U{FEFF}'
  }

  /** `\w` without the `u` flag: ASCII letters, digits and underscore. */
  predicate IsWordChar(c: char) {
    ('a' <= c <= 'z') || ('A' <= c <= 'Z') || ('0' <= c <= '9') || c == '_'
  }

  lemma WordCharIsNotWs(c: char)
    ensures IsWordChar(c) ==> !IsWs(c)
  {
  }

  predicate NoWs(s: string) {
    forall i :: 0 <= i < |s| ==> !IsWs(s[i])
  }

  predicate AllWs(s: string) {
    forall i :: 0 <= i < |s| ==> IsWs(s[i])
  }

  /** The characters of `s` that are not whitespace, in order. */
  function Visible(s: string): (r: string)
    ensures NoWs(r)
    ensures |r| <= |s|
  {
    if s == [] then []
    else if IsWs(s[0]) then Visible(s[1..])
    else [s[0]] + Visible(s[1..])
  }

  lemma {:induction false} VisibleConcat(a: string, b: string)
    ensures Visible(a + b) == Visible(a) + Visible(b)
  {
    if a == [] {
      assert a + b == b;
    } else {
      assert (a + b)[1..] == a[1..] + b;
      VisibleConcat(a[1..], b);
    }
  }

  lemma {:induction false} VisibleOfAllWs(s: string)
    requires AllWs(s)
    ensures Visible(s) == []
  {
    if s != [] {
      VisibleOfAllWs(s[1..]);
    }
  }

  /** Length of the leading whitespace run of `s`. */
  function WsRunLength(s: string): (n: nat)
    ensures n <= |s|
    ensures forall i :: 0 <= i < n ==> IsWs(s[i])
    ensures n == |s| || !IsWs(s[n])
  {
    if s == [] || !IsWs(s[0]) then 0 else 1 + WsRunLength(s[1..])
  }

  /** Drops the leading whitespace run of `s`. */
  function SkipWs(s: string): (r: string)
    ensures |r| <= |s|
    ensures s != [] && IsWs(s[0]) ==> |r| < |s|
    ensures r == s[|s| - |r|..]
    ensures AllWs(s[..|s| - |r|])
    ensures r == [] || !IsWs(r[0])
  {
    s[WsRunLength(s)..]
  }

  /** Length of `s` without its trailing whitespace run. */
  function TrimmedEnd(s: string): (n: nat)
    ensures n <= |s|
    ensures forall i :: n <= i < |s| ==> IsWs(s[i])
    ensures n == 0 || !IsWs(s[n - 1])
  {
    if s == [] || !IsWs(s[|s| - 1]) then |s| else TrimmedEnd(s[..|s| - 1])
  }

  /** `String.prototype.trim`. */
  function Trim(s: string): (r: string)
    ensures r == [] || (!IsWs(r[0]) && !IsWs(r[|r| - 1]))
    ensures exists i, j :: 0 <= i <= j <= |s| && r == s[i..j] && AllWs(s[..i]) && AllWs(s[j..])
  {
    var i := WsRunLength(s);
    var j := i + TrimmedEnd(s[i..]);
    assert AllWs(s[j..]) by {
      forall k | 0 <= k < |s| - j ensures IsWs(s[j..][k]) {
        assert s[j..][k] == s[i..][j - i + k];
      }
    }
    s[i..j]
  }

  lemma VisibleSkipWs(s: string)
    ensures Visible(SkipWs(s)) == Visible(s)
  {
    var k := |s| - |SkipWs(s)|;
    assert s == s[..k] + SkipWs(s);
    VisibleConcat(s[..k], SkipWs(s));
    VisibleOfAllWs(s[..k]);
  }

  lemma VisibleTrim(s: string)
    ensures Visible(Trim(s)) == Visible(s)
  {
    var i, j :| 0 <= i <= j <= |s| && Trim(s) == s[i..j] && AllWs(s[..i]) && AllWs(s[j..]);
    assert s == s[..i] + (s[i..j] + s[j..]);
    VisibleConcat(s[..i], s[i..j] + s[j..]);
    VisibleConcat(s[i..j], s[j..]);
    VisibleOfAllWs(s[..i]);
    VisibleOfAllWs(s[j..]);
  }

  /** `Array.prototype.join(sep)` on strings. */
  function Join(parts: seq<string>, sep: string): string {
    if parts == [] then []
    else if |parts| == 1 then parts[0]
    else parts[0] + sep + Join(parts[1..], sep)
  }

  lemma {:induction false} JoinNoWs(parts: seq<string>, sep: string)
    requires NoWs(sep)
    requires forall i :: 0 <= i < |parts| ==> NoWs(parts[i])
    ensures NoWs(Join(parts, sep))
  {
    if |parts| > 1 {
      JoinNoWs(parts[1..], sep);
      NoWsConcat(parts[0], sep);
      NoWsConcat(parts[0] + sep, Join(parts[1..], sep));
    }
  }

  lemma NoWsConcat(a: string, b: string)
    requires NoWs(a) && NoWs(b)
    ensures NoWs(a + b)
  {
    forall i | 0 <= i < |a + b| ensures !IsWs((a + b)[i]) {
      if i >= |a| {
        assert (a + b)[i] == b[i - |a|];
      }
    }
  }
}

=== FILE: json_string.dfy ===
/** QuoteJSONString (section 25.5.2.3 of ECMA-262, 2024 edition; section
    24.5.2.2 in the 2020 edition), the string quoting JSON.stringify uses,
    and the reading of a JSON string literal that undoes it. Dafny characters
    are Unicode scalar values, so the lone-surrogate case of the algorithm
    cannot arise. */
module JsonString {
  import opened Wrappers

  const HexDigits: string := "0123456789abcdef"

  predicate IsHexDigit(c: char) {
    ('0' <= c <= '9') || ('a' <= c <= 'f') || ('A' <= c <= 'F')
  }

  function HexValue(c: char): (d: nat)
    requires IsHexDigit(c)
    ensures d < 16
  {
    if '0' <= c <= '9' then c as int - 48
    else if 'a' <= c <= 'f' then c as int - 87
    else c as int - 55
  }

  /** UnicodeEscape: `\u` and four lower-case hexadecimal digits. */
  function UnicodeEscape(n: nat): (r: string)
    requires n < 0x1_0000
    ensures |r| == 6 && r[..2] == "\\u"
    ensures forall i :: 2 <= i < 6 ==> IsHexDigit(r[i])
  {
    var m1 := n / 16;
    var m2 := m1 / 16;
    "\\u" + [HexDigits[m2 / 16], HexDigits[m2 % 16], HexDigits[m1 % 16], HexDigits[n % 16]]
  }

  /** The text QuoteJSONString emits for one code point. */
  function EscapeChar(c: char): string {
    if c == '\U{0008}' then "\\b"
    else if c == '\t' then "\\t"
    else if c == '\n' then "\\n"
    else if c == '\U{000C}' then "\\f"
    else if c == '\r' then "\\r"
    else if c == '"' then "\\\""
    else if c == '\\' then "\\\\"
    else if c < ' ' then UnicodeEscape(c as int)
    else [c]
  }

  function EscapeBody(s: string): string {
    if s == [] then [] else EscapeChar(s[0]) + EscapeBody(s[1..])
  }

  /** QuoteJSONString. */
  function Quote(s: string): (r: string)
    ensures |r| >= 2 && r[0] == '"' && r[|r| - 1] == '"'
  {
    "\"" + EscapeBody(s) + "\""
  }

  function FourHexValue(s: string): nat
    requires |s| == 4 && forall i :: 0 <= i < 4 ==> IsHexDigit(s[i])
  {
    ((HexValue(s[0]) * 16 + HexValue(s[1])) * 16 + HexValue(s[2])) * 16 + HexValue(s[3])
  }

  /** The character a two-character escape `\x` stands for in JSON. */
  function ShortEscape(x: char): Option<char> {
    if x == '"' then Some('"')
    else if x == '\\' then Some('\\')
    else if x == '/' then Some('/')
    else if x == 'b' then Some('\U{0008}')
    else if x == 'f' then Some('\U{000C}')
    else if x == 'n' then Some('\n')
    else if x == 'r' then Some('\r')
    else if x == 't' then Some('\t')
    else None
  }

  /** Reads the body of a JSON string literal up to and including its closing
      quote; yields the decoded characters and the text after the quote.
      Escapes of surrogate code units are rejected: a Dafny string cannot
      hold them. */
  function ReadStringBody(s: string): (r: Option<(string, string)>)
    ensures r.Some? ==> |r.value.1| < |s|
    decreases |s|
  {
    if s == [] then None
    else if s[0] == '"' then Some(([], s[1..]))
    else if s[0] == '\\' then
      if |s| < 2 then None
      else if s[1] == 'u' then
        if |s| >= 6 && (forall i :: 2 <= i < 6 ==> IsHexDigit(s[i])) then
          var n := FourHexValue(s[2..6]);
          if 0xD800 <= n < 0xE000 then None
          else Prepend(n as char, ReadStringBody(s[6..]))
        else None
      else match ShortEscape(s[1])
        case Some(c) => Prepend(c, ReadStringBody(s[2..]))
        case None => None
    else if s[0] < ' ' then None
    else Prepend(s[0], ReadStringBody(s[1..]))
  }

  function Prepend(c: char, r: Option<(string, string)>): (r': Option<(string, string)>)
    ensures r'.Some? <==> r.Some?
    ensures r.Some? ==> r'.value.1 == r.value.1
  {
    match r
    case Some((v, rest)) => Some(([c] + v, rest))
    case None => None
  }

  /** Reads a whole JSON string literal. */
  function ReadString(s: string): Option<(string, string)> {
    if s != [] && s[0] == '"' then ReadStringBody(s[1..]) else None
  }

  lemma HexDigitsRoundTrip(n: nat)
    requires n < 0x1_0000
    ensures FourHexValue(UnicodeEscape(n)[2..]) == n
  {
    var m1 := n / 16;
    var m2 := m1 / 16;
    var r := UnicodeEscape(n);
    assert r[2..] == [HexDigits[m2 / 16], HexDigits[m2 % 16], HexDigits[m1 % 16], HexDigits[n % 16]];
    forall d: nat | d < 16 ensures HexValue(HexDigits[d]) == d {
    }
    assert n == m1 * 16 + n % 16;
    assert m1 == m2 * 16 + m1 % 16;
    assert m2 == (m2 / 16) * 16 + m2 % 16;
  }

  lemma {:induction false} EscapeCharReadBack(c: char, rest: string)
    ensures ReadStringBody(EscapeChar(c) + rest) == Prepend(c, ReadStringBody(rest))
  {
    var e := EscapeChar(c);
    var s := e + rest;
    if c == '\U{0008}' || c == '\t' || c == '\n' || c == '\U{000C}' || c == '\r' || c == '"' || c == '\\' {
      assert s[..2] == e && s[2..] == rest;
    } else if c < ' ' {
      HexDigitsRoundTrip(c as int);
      assert s[..6] == e && s[6..] == rest;
      assert s[2..6] == e[2..];
    } else {
      assert s[0] == c && s[1..] == rest;
    }
  }

  lemma {:induction false} EscapeBodyReadBack(x: string, rest: string)
    ensures ReadStringBody(EscapeBody(x) + "\"" + rest) == Some((x, rest))
  {
    if x == [] {
      assert EscapeBody(x) + "\"" + rest == "\"" + rest;
    } else {
      assert EscapeBody(x) + "\"" + rest == EscapeChar(x[0]) + (EscapeBody(x[1..]) + "\"" + rest);
      EscapeCharReadBack(x[0], EscapeBody(x[1..]) + "\"" + rest);
      EscapeBodyReadBack(x[1..], rest);
      assert [x[0]] + x[1..] == x;
    }
  }

  /** Reading a quoted string back yields exactly the original characters and
      stops right after the closing quote, whatever follows. */
  lemma QuoteRoundTrip(x: string, rest: string)
    ensures ReadString(Quote(x) + rest) == Some((x, rest))
  {
    assert (Quote(x) + rest)[1..] == EscapeBody(x) + "\"" + rest;
    EscapeBodyReadBack(x, rest);
  }

  /** Hence quoting is injective. */
  lemma QuoteInjective(x: string, y: string)
    requires Quote(x) == Quote(y)
    ensures x == y
  {
    QuoteRoundTrip(x, []);
    QuoteRoundTrip(y, []);
    assert Quote(x) + [] == Quote(x);
    assert Quote(y) + [] == Quote(y);
  }
}

=== FILE: local_progress.dfy ===
/** The browser-local progress store of src/utils/progress.ts. Its state is
    the one entry kept under the key "ts-practice-progress": nothing, or a stored
    `UserProgress`. Serialising to and from JSON is the identity here. */
module LocalProgress {
  import opened Wrappers
  import opened Seqs
  import opened Challenges
  import opened ProgressContract

  type Stored = Option<UserProgress>

  /** What getProgress reads when nothing is stored. */
  const Default: UserProgress := UserProgress([], 0)

  /** getProgress (lines 5-11). */
  function GetProgress(stored: Stored): (p: UserProgress)
    ensures stored.Some? ==> p == stored.value
    ensures stored.None? ==> p.solvedChallenges == [] && p.totalPoints == 0
  {
    stored.GetOr(Default)
  }

  /** The state after a call, and what the call returned. */
  datatype Marked = Marked(stored: Stored, progress: UserProgress)

  /** markChallengeSolved (lines 17-25): an id not yet in the list is
      appended and its points added, and the result is written; otherwise
      nothing is written. Either way the progress read is returned. */
  function MarkSolved(stored: Stored, id: string, points: int): (r: Marked)
    ensures r.progress == GetProgress(r.stored)
    ensures id in r.progress.solvedChallenges
    ensures id in GetProgress(stored).solvedChallenges ==> r.stored == stored
    ensures id !in GetProgress(stored).solvedChallenges ==>
              && r.stored.Some?
              && r.progress.solvedChallenges == GetProgress(stored).solvedChallenges + [id]
              && r.progress.totalPoints == GetProgress(stored).totalPoints + points
  {
    var p := GetProgress(stored);
    if id !in p.solvedChallenges then
      var updated := UserProgress(p.solvedChallenges + [id], p.totalPoints + points);
      Marked(Some(updated), updated)
    else
      Marked(stored, p)
  }

  /** isChallengeSolved (lines 27-30). */
  predicate IsSolved(stored: Stored, id: string): (b: bool)
    ensures b <==> id in Summarize(stored).solved
    ensures stored.None? ==> !b
  {
    id in GetProgress(stored).solvedChallenges
  }

  /** resetProgress (lines 32-34): the entry is removed. */
  function Reset(stored: Stored): Stored {
    None
  }

  /** The store seen through the common contract. */
  function Summarize(stored: Stored): Summary {
    var p := GetProgress(stored);
    Summary((set x | x in p.solvedChallenges), p.totalPoints)
  }

  /** Marking follows the common contract: the first mark of an id awards
      its points, later ones nothing. */
  lemma MarkFollowsAward(stored: Stored, id: string, points: int)
    ensures Summarize(MarkSolved(stored, id, points).stored) == Award(Summarize(stored), id, points)
  {
    var l := GetProgress(stored).solvedChallenges;
    if id !in l {
      assert (set x | x in l + [id]) == (set x | x in l) + {id};
    }
  }

  /** Marking twice is marking once, whatever points the second call
      carries: no double award, and the second call writes nothing. */
  lemma MarkTwiceIsMarkOnce(stored: Stored, id: string, p: int, q: int)
    ensures MarkSolved(MarkSolved(stored, id, p).stored, id, q) == MarkSolved(stored, id, p)
  {
  }

  /** After marking, the challenge reads as solved. */
  lemma MarkThenSolved(stored: Stored, id: string, points: int, other: string)
    ensures IsSolved(MarkSolved(stored, id, points).stored, id)
    ensures IsSolved(stored, other) ==> IsSolved(MarkSolved(stored, id, points).stored, other)
  {
  }

  /** A list without repeats stays without repeats. */
  lemma MarkKeepsDistinct(stored: Stored, id: string, points: int)
    requires Distinct(GetProgress(stored).solvedChallenges)
    ensures Distinct(GetProgress(MarkSolved(stored, id, points).stored).solvedChallenges)
  {
    var l := GetProgress(stored).solvedChallenges;
    if id !in l {
      var l' := l + [id];
      forall i, j | 0 <= i < j < |l'| ensures l'[i] != l'[j] {
        if j == |l| {
          assert l'[i] == l[i];
        }
      }
    }
  }

  /** After a reset every read sees the empty default. */
  lemma ResetForgetsEverything(stored: Stored, id: string)
    ensures GetProgress(Reset(stored)) == UserProgress([], 0)
    ensures !IsSolved(Reset(stored), id)
  {
  }

  /** A sequence of marks applied in order. */
  function ReplayMarks(stored: Stored, marks: seq<(string, int)>): Stored
    decreases |marks|
  {
    if marks == [] then stored
    else
      var last := marks[|marks| - 1];
      MarkSolved(ReplayMarks(stored, marks[..|marks| - 1]), last.0, last.1).stored
  }

  /** The ids of a sequence of marks, in order. */
  function MarkedIds(marks: seq<(string, int)>): (ids: seq<string>)
    ensures |ids| == |marks|
  {
    seq(|marks|, i requires 0 <= i < |marks| => marks[i].0)
  }

  /** From an empty store, the solved list is the marked ids without
      repeats, in the order they were first marked. */
  lemma {:induction false} ReplayListsFirstMarks(marks: seq<(string, int)>)
    ensures GetProgress(ReplayMarks(None, marks)).solvedChallenges == Dedupe(MarkedIds(marks))
    decreases |marks|
  {
    if marks != [] {
      var init := marks[..|marks| - 1];
      ReplayListsFirstMarks(init);
      var ids := MarkedIds(marks);
      assert ids[..|ids| - 1] == MarkedIds(init);
    }
  }

  /** From an empty store, the total adds each id's first points only. */
  lemma ReplayTotalsFirstAwards(marks: seq<(string, int)>)
    ensures GetProgress(ReplayMarks(None, marks)).totalPoints == Sum(FirstAwards(marks))
  {
    ReplayAgreesWithContract(None, marks);
    assert Summarize(None) == Empty;
    ReplayAwardsEachIdOnce(marks);
  }

  /** The local store, seen through the contract, replays like the contract. */
  lemma {:induction false} ReplayAgreesWithContract(stored: Stored, marks: seq<(string, int)>)
    ensures Summarize(ReplayMarks(stored, marks)) == Replay(Summarize(stored), marks)
    decreases |marks|
  {
    if marks != [] {
      var last := marks[|marks| - 1];
      ReplayAgreesWithContract(stored, marks[..|marks| - 1]);
      MarkFollowsAward(ReplayMarks(stored, marks[..|marks| - 1]), last.0, last.1);
    }
  }
}

=== FILE: normalize.dfy ===
/** The tolerant comparison of the test runner (src/utils/testRunner.ts,
    lines 94-102): `normalizeForComparison` as a chain of global regular
    expression replacements, and the three-way pass rule built on it. */
module Normalize {
  import opened JsText

  /** `s.replace(/\s+/g, ' ')`: every maximal whitespace run becomes one space. */
  function CollapseWs(s: string): (r: string)
    decreases |s|
  {
    if s == [] then []
    else if IsWs(s[0]) then " " + CollapseWs(SkipWs(s))
    else [s[0]] + CollapseWs(s[1..])
  }

  /** `s.replace(/c\s+/g, c)`: whitespace runs right after `c` are deleted. */
  function DropWsAfter(s: string, c: char): (r: string)
    decreases |s|
  {
    if s == [] then []
    else if s[0] == c then [c] + DropWsAfter(SkipWs(s[1..]), c)
    else [s[0]] + DropWsAfter(s[1..], c)
  }

  /** `s.replace(/\s+c/g, c)`: whitespace runs right before `c` are deleted. */
  function DropWsBefore(s: string, c: char): (r: string)
    decreases |s|
  {
    if s == [] then []
    else if IsWs(s[0]) && SkipWs(s) != [] && SkipWs(s)[0] == c then
      [c] + DropWsBefore(SkipWs(s)[1..], c)
    else [s[0]] + DropWsBefore(s[1..], c)
  }

  /** `normalizeForComparison`: trim, collapse whitespace runs to one space,
      then remove whitespace after `[`, before `]`, after `,` and after `:`,
      in that order. */
  function Norm(s: string): (r: string)
    ensures Visible(r) == Visible(s)
    ensures NoWs(s) ==> r == s
  {
    var t0 := Trim(s);
    var t1 := CollapseWs(t0);
    var t2 := DropWsAfter(t1, '[');
    var t3 := DropWsBefore(t2, ']');
    var t4 := DropWsAfter(t3, ',');
    VisibleTrim(s);
    CollapseKeepsVisible(t0);
    DropAfterKeepsVisible(t1, '[');
    DropBeforeKeepsVisible(t2, ']');
    DropAfterKeepsVisible(t3, ',');
    DropAfterKeepsVisible(t4, ':');
    if NoWs(s) then
      TrimOfNoWs(s);
      CollapseOfNoWs(s);
      DropAfterOfNoWs(s, '[');
      DropBeforeOfNoWs(s, ']');
      DropAfterOfNoWs(s, ',');
      DropAfterOfNoWs(s, ':');
      DropWsAfter(t4, ':')
    else DropWsAfter(t4, ':')
  }

  /** The pass rule of the runner: exact equality, else equality after trim,
      else equality after normalisation. */
  predicate Passes(actual: string, expected: string): (b: bool)
    ensures b <==> Norm(actual) == Norm(expected)
  {
    || actual == expected
    || Trim(actual) == Trim(expected)
    || Norm(actual) == Norm(expected)
  }

  /** The first two tests of the pass rule are subsumed by the third, so a
      result passes exactly when both sides normalise to the same text. */
  lemma PassesIffSameNorm(actual: string, expected: string)
    ensures Passes(actual, expected) <==> Norm(actual) == Norm(expected)
  {
  }

  lemma PassesIsEquivalence(a: string, b: string, c: string)
    ensures Passes(a, a)
    ensures Passes(a, b) <==> Passes(b, a)
    ensures Passes(a, b) && Passes(b, c) ==> Passes(a, c)
  {
    PassesIffSameNorm(a, b);
    PassesIffSameNorm(b, c);
    PassesIffSameNorm(a, c);
  }

  // Each replacement only deletes or rewrites whitespace.

  lemma {:induction false} CollapseKeepsVisible(s: string)
    ensures Visible(CollapseWs(s)) == Visible(s)
    decreases |s|
  {
    if s == [] {
    } else if IsWs(s[0]) {
      CollapseKeepsVisible(SkipWs(s));
      VisibleSkipWs(s);
      VisibleConcat(" ", CollapseWs(SkipWs(s)));
    } else {
      CollapseKeepsVisible(s[1..]);
      VisibleConcat([s[0]], CollapseWs(s[1..]));
    }
  }

  lemma {:induction false} DropAfterKeepsVisible(s: string, c: char)
    requires !IsWs(c)
    ensures Visible(DropWsAfter(s, c)) == Visible(s)
    decreases |s|
  {
    if s == [] {
    } else if s[0] == c {
      DropAfterKeepsVisible(SkipWs(s[1..]), c);
      VisibleSkipWs(s[1..]);
      VisibleConcat([c], DropWsAfter(SkipWs(s[1..]), c));
    } else {
      DropAfterKeepsVisible(s[1..], c);
      VisibleConcat([s[0]], DropWsAfter(s[1..], c));
    }
  }

  lemma {:induction false} DropBeforeKeepsVisible(s: string, c: char)
    requires !IsWs(c)
    ensures Visible(DropWsBefore(s, c)) == Visible(s)
    decreases |s|
  {
    if s == [] {
    } else if IsWs(s[0]) && SkipWs(s) != [] && SkipWs(s)[0] == c {
      var t := SkipWs(s);
      DropBeforeKeepsVisible(t[1..], c);
      VisibleSkipWs(s);
      assert t == [c] + t[1..];
      VisibleConcat([c], t[1..]);
      VisibleConcat([c], DropWsBefore(t[1..], c));
    } else {
      DropBeforeKeepsVisible(s[1..], c);
      VisibleConcat([s[0]], DropWsBefore(s[1..], c));
    }
  }

  /** Normalisation never adds, drops or reorders a visible character. */
  lemma NormKeepsVisible(s: string)
    ensures Visible(Norm(s)) == Visible(s)
  {
  }

  /** Hence the tolerance is about whitespace only: a passing result shows
      the same visible characters, in the same order, as the expected text. */
  lemma PassingSharesVisibleText(actual: string, expected: string)
    requires Passes(actual, expected)
    ensures Visible(actual) == Visible(expected)
  {
    PassesIffSameNorm(actual, expected);
    NormKeepsVisible(actual);
    NormKeepsVisible(expected);
  }

  lemma TrimOfNoWs(s: string)
    requires NoWs(s)
    ensures Trim(s) == s
  {
  }

  lemma {:induction false} CollapseOfNoWs(s: string)
    requires NoWs(s)
    ensures CollapseWs(s) == s
  {
    if s != [] {
      CollapseOfNoWs(s[1..]);
    }
  }

  lemma {:induction false} DropAfterOfNoWs(s: string, c: char)
    requires NoWs(s)
    ensures DropWsAfter(s, c) == s
  {
    if s != [] {
      DropAfterOfNoWs(s[1..], c);
    }
  }

  lemma {:induction false} DropBeforeOfNoWs(s: string, c: char)
    requires NoWs(s)
    ensures DropWsBefore(s, c) == s
  {
    if s != [] {
      DropBeforeOfNoWs(s[1..], c);
    }
  }

  /** Text without whitespace is already in normal form; compact JSON of
      whitespace-free strings is such text (JsValues.RenderNoWs). */
  lemma NormOfNoWs(s: string)
    requires NoWs(s)
    ensures Norm(s) == s
  {
  }

  // Identities on text where a replacement finds nothing to replace.

  // Adjacent positions are bound as a pair `i, j` with `j == i + 1`, so that
  // the quantifiers trigger on `s[i], s[j]` without a matching loop.

  ghost predicate SingleSpaced(s: string) {
    && (forall i :: 0 <= i < |s| && IsWs(s[i]) ==> s[i] == ' ')
    && (forall i, j :: 0 <= i && j == i + 1 && j < |s| ==> !(IsWs(s[i]) && IsWs(s[j])))
  }

  ghost predicate NoWsAfter(s: string, c: char) {
    forall i, j :: 0 <= i && j == i + 1 && j < |s| && s[i] == c ==> !IsWs(s[j])
  }

  ghost predicate NoWsBefore(s: string, c: char) {
    forall i, j :: 0 <= i && j == i + 1 && j < |s| && s[j] == c ==> !IsWs(s[i])
  }

  lemma TrimOfTrimmed(s: string)
    requires s == [] || (!IsWs(s[0]) && !IsWs(s[|s| - 1]))
    ensures Trim(s) == s
  {
  }

  lemma {:induction false} CollapseOfSingleSpaced(s: string)
    requires SingleSpaced(s)
    ensures CollapseWs(s) == s
    decreases |s|
  {
    if s != [] {
      assert SingleSpaced(s[1..]);
      if IsWs(s[0]) {
        assert s[1..] == [] || !IsWs(s[1..][0]);
        assert WsRunLength(s[1..]) == 0;
        assert SkipWs(s) == s[1..];
      }
      CollapseOfSingleSpaced(s[1..]);
    }
  }

  lemma {:induction false} DropAfterOfClean(s: string, c: char)
    requires NoWsAfter(s, c)
    ensures DropWsAfter(s, c) == s
    decreases |s|
  {
    if s != [] {
      assert NoWsAfter(s[1..], c);
      if s[0] == c {
        assert SkipWs(s[1..]) == s[1..];
      }
      DropAfterOfClean(s[1..], c);
    }
  }

  lemma {:induction false} DropBeforeOfClean(s: string, c: char)
    requires NoWsBefore(s, c)
    ensures DropWsBefore(s, c) == s
    decreases |s|
  {
    if s != [] {
      assert NoWsBefore(s[1..], c);
      if IsWs(s[0]) && SkipWs(s) != [] {
        var k := WsRunLength(s);
        assert SkipWs(s)[0] == s[k] && IsWs(s[k - 1]);
      }
      DropBeforeOfClean(s[1..], c);
    }
  }

  /** Two adjacent characters allowed in normal form. */
  predicate AdjacentOk(x: char, y: char) {
    if IsWs(y) then !IsWs(x) && x != '[' && x != ',' && x != ':'
    else !(IsWs(x) && y == ']')
  }

  /** Text in normal form: trimmed, whitespace only as single spaces, and
      no whitespace after `[`, `,`, `:` or before `]`. */
  ghost predicate IsNormal(s: string) {
    && (s == [] || (!IsWs(s[0]) && !IsWs(s[|s| - 1])))
    && (forall i :: 0 <= i < |s| && IsWs(s[i]) ==> s[i] == ' ')
    && (forall i, j :: 0 <= i && j == i + 1 && j < |s| ==> AdjacentOk(s[i], s[j]))
  }

  /** Normalisation leaves text in normal form unchanged. */
  lemma NormOfNormal(s: string)
    requires IsNormal(s)
    ensures Norm(s) == s
  {
    assert SingleSpaced(s);
    TrimOfTrimmed(s);
    CollapseOfSingleSpaced(s);
    DropAfterOfClean(s, '[');
    DropBeforeOfClean(s, ']');
    DropAfterOfClean(s, ',');
    DropAfterOfClean(s, ':');
  }

  lemma {:induction false} DropAfterNoWsPrefix(a: string, b: string, c: char)
    requires NoWs(a) && (a == [] || a[|a| - 1] != c || b == [] || !IsWs(b[0]))
    ensures DropWsAfter(a + b, c) == a + DropWsAfter(b, c)
  {
    if a == [] {
      assert a + b == b;
    } else {
      var s := a + b;
      assert s[1..] == a[1..] + b;
      DropAfterNoWsPrefix(a[1..], b, c);
      if a[0] == c {
        if |a| > 1 {
          assert s[1..][0] == a[1];
        } else {
          assert s[1..] == b;
        }
        assert WsRunLength(s[1..]) == 0;
        assert SkipWs(s[1..]) == s[1..];
      }
      assert DropWsAfter(s, c) == [a[0]] + DropWsAfter(a[1..] + b, c);
      assert a + DropWsAfter(b, c) == [a[0]] + (a[1..] + DropWsAfter(b, c));
    }
  }

  /** Two different texts that are both in normal form never pass. */
  lemma NormalTextsMismatch(actual: string, expected: string)
    requires IsNormal(actual) && IsNormal(expected) && actual != expected
    ensures !Passes(actual, expected)
  {
    NormOfNormal(actual);
    NormOfNormal(expected);
    PassesIffSameNorm(actual, expected);
  }

  lemma DropAfterAtMark(w: string, y: string, c: char)
    requires AllWs(w) && (y == [] || !IsWs(y[0]))
    ensures DropWsAfter([c] + w + y, c) == [c] + DropWsAfter(y, c)
  {
    var s := [c] + w + y;
    assert s[1..] == w + y;
    assert s[1..][..|w|] == w;
    var k := WsRunLength(s[1..]);
    assert k == |w|;
  }

  /** On trimmed, single-spaced text with no space inside the brackets, only
      the comma and colon replacements have anything left to do. */
  lemma NormOfBracketClean(s: string)
    requires s == [] || (!IsWs(s[0]) && !IsWs(s[|s| - 1]))
    requires SingleSpaced(s) && NoWsAfter(s, '[') && NoWsBefore(s, ']')
    ensures Norm(s) == DropWsAfter(DropWsAfter(s, ','), ':')
  {
    TrimOfTrimmed(s);
    CollapseOfSingleSpaced(s);
    DropAfterOfClean(s, '[');
    DropBeforeOfClean(s, ']');
  }

  /** A space before a comma is not tolerated. */
  lemma SpaceBeforeCommaMismatches()
    ensures !Passes("[2,4,6]", "[2 ,4,6]")
  {
    var a := "[2,4,6]";
    var e := "[2 ,4,6]";
    assert IsNormal(a);
    assert IsNormal(e);
    NormalTextsMismatch(a, e);
  }

  /** Neither is a space inside braces. */
  lemma SpaceInsideBracesMismatches()
    ensures !Passes("{\"a\":1}", "{ \"a\":1 }")
  {
    var a := "{\"a\":1}";
    var e := "{ \"a\":1 }";
    assert IsNormal(a);
    assert IsNormal(e);
    NormalTextsMismatch(a, e);
  }

  lemma SpaceAfterCommaDropped(rest: string)
    requires rest == [] || !IsWs(rest[0])
    ensures DropWsAfter(", " + rest, ',') == "," + DropWsAfter(rest, ',')
  {
    assert ", " + rest == [','] + " " + rest;
    DropAfterAtMark(" ", rest, ',');
  }

  /** `, ` after a whitespace-free text loses its space to the comma
      replacement. */
  lemma CommaSpaceDropped(x: string, rest: string)
    requires NoWs(x)
    requires rest == [] || !IsWs(rest[0])
    ensures DropWsAfter(x + ", " + rest, ',') == x + "," + DropWsAfter(rest, ',')
  {
    var t := ", " + rest;
    var d := DropWsAfter(rest, ',');
    assert DropWsAfter(x + t, ',') == x + DropWsAfter(t, ',') by {
      assert t[0] == ',';
      DropAfterNoWsPrefix(x, t, ',');
    }
    assert DropWsAfter(t, ',') == "," + d by {
      SpaceAfterCommaDropped(rest);
    }
    assert x + ", " + rest == x + t;
    assert x + ("," + d) == x + "," + d;
  }

  /** Single-spaced text without space inside its brackets passes against
      what the comma replacement makes of it, when that is in normal form
      and free of whitespace. */
  lemma CommaSpacesTolerated(pretty: string, compact: string)
    requires pretty != [] && !IsWs(pretty[0]) && !IsWs(pretty[|pretty| - 1])
    requires SingleSpaced(pretty) && NoWsAfter(pretty, '[') && NoWsBefore(pretty, ']')
    requires IsNormal(compact) && NoWs(compact)
    requires DropWsAfter(pretty, ',') == compact
    ensures Passes(pretty, compact)
  {
    NormOfNormal(compact);
    NormOfBracketClean(pretty);
    DropAfterOfNoWs(compact, ':');
    PassesIffSameNorm(pretty, compact);
  }

  // Literal texts here would make the solver unfold everything at once.

  lemma PrettyArrayIsBracketClean(pretty: string)
    requires pretty == "[2, 4, 6]"
    ensures !IsWs(pretty[0]) && !IsWs(pretty[|pretty| - 1])
    ensures SingleSpaced(pretty) && NoWsAfter(pretty, '[') && NoWsBefore(pretty, ']')
  {
  }

  lemma CompactArrayIsNormal(compact: string)
    requires compact == "[2,4,6]"
    ensures IsNormal(compact) && NoWs(compact)
  {
  }

  /** Three whitespace-free pieces joined by `, ` lose both spaces. */
  lemma PrettyArrayCommas(a: string, b: string, c: string)
    requires NoWs(a) && NoWs(b) && NoWs(c) && b != []
    ensures DropWsAfter(a + ", " + b + ", " + c, ',') == a + "," + b + "," + c
  {
    var tail := b + ", " + c;
    assert DropWsAfter(tail, ',') == b + "," + c by {
      CommaSpaceDropped(b, c);
      DropAfterOfNoWs(c, ',');
    }
    assert DropWsAfter(a + ", " + tail, ',') == a + "," + DropWsAfter(tail, ',') by {
      assert tail[0] == b[0];
      CommaSpaceDropped(a, tail);
    }
    assert a + ", " + b + ", " + c == a + ", " + tail;
    assert a + "," + (b + "," + c) == a + "," + b + "," + c;
  }

  /** A space after each comma is tolerated: the pretty-printed array
      passes against the compact one. */
  lemma SpaceAfterCommaPasses(pretty: string, compact: string)
    requires pretty == "[2, 4, 6]" && compact == "[2,4,6]"
    ensures Passes(pretty, compact)
  {
    CompactArrayIsNormal(compact);
    PrettyArrayIsBracketClean(pretty);
    var a, b, c := compact[..2], compact[3..4], compact[5..];
    assert pretty == a + ", " + b + ", " + c;
    assert compact == a + "," + b + "," + c;
    PrettyArrayCommas(a, b, c);
    CommaSpacesTolerated(pretty, compact);
  }
}

=== FILE: numerals.dfy ===
/** Decimal text of integers, as `String(n)` produces it for an integral
    Number of magnitude at most 2^53 and as `BigInt.prototype.toString()`
    produces it for any BigInt; plus the reading that inverts it. */
module Numerals {
  import opened Wrappers

  predicate IsDigit(c: char) {
    '0' <= c <= '9'
  }

  predicate AllDigits(s: string) {
    forall i :: 0 <= i < |s| ==> IsDigit(s[i])
  }

  function DigitChar(d: nat): (c: char)
    requires d < 10
    ensures IsDigit(c)
  {
    (48 + d) as char
  }

  function DigitValue(c: char): (d: nat)
    requires IsDigit(c)
    ensures d < 10
  {
    c as int - 48
  }

  /** The decimal digits of `n`, most significant first. */
  function Digits(n: nat): (r: string)
    ensures |r| >= 1 && AllDigits(r)
    ensures r[0] == '0' ==> n == 0 && r == "0"
  {
    if n < 10 then [DigitChar(n)] else Digits(n / 10) + [DigitChar(n % 10)]
  }

  /** The number a run of decimal digits denotes. */
  function DigitsValue(s: string): nat
    requires AllDigits(s)
  {
    if s == [] then 0 else DigitsValue(s[..|s| - 1]) * 10 + DigitValue(s[|s| - 1])
  }

  lemma {:induction false} DigitsRoundTrip(n: nat)
    ensures DigitsValue(Digits(n)) == n
  {
    if n >= 10 {
      var r := Digits(n);
      assert r[..|r| - 1] == Digits(n / 10);
      DigitsRoundTrip(n / 10);
    }
  }

  /** `String(n)` for an integer: a minus sign for negatives, then the digits
      of the magnitude, without leading zeros. */
  function Decimal(n: int): (r: string)
    ensures |r| >= 1
    ensures n < 0 <==> r[0] == '-'
    ensures AllDigits(if n < 0 then r[1..] else r)
  {
    if n < 0 then "-" + Digits(-n) else Digits(n)
  }

  /** Reads an optionally negative run of decimal digits. */
  function ParseInteger(s: string): Option<int> {
    if s != [] && s[0] == '-' && |s| > 1 && AllDigits(s[1..]) then Some(-(DigitsValue(s[1..]) as int))
    else if s != [] && AllDigits(s) then Some(DigitsValue(s))
    else None
  }

  /** Reading the decimal text back gives the integer it was made from. */
  lemma DecimalRoundTrip(n: int)
    ensures ParseInteger(Decimal(n)) == Some(n)
  {
    var s := Decimal(n);
    if n < 0 {
      assert s[1..] == Digits(-n) && |s| > 1 && s[0] == '-';
      DigitsRoundTrip(-n);
    } else {
      assert s == Digits(n) && s[0] != '-';
      DigitsRoundTrip(n);
    }
  }

  /** A run of digits without a leading zero, unless it is "0" itself. */
  predicate NoLeadingZero(s: string) {
    s != [] && AllDigits(s) && (s[0] == '0' ==> s == "0")
  }

  /** The only spellings `String` and `BigInt.prototype.toString` use: no
      leading zero, and no `-0`. */
  predicate IsCanonicalNumeral(s: string) {
    if s != [] && s[0] == '-' then NoLeadingZero(s[1..]) && s[1..] != "0"
    else NoLeadingZero(s)
  }

  lemma DecimalIsCanonical(n: int)
    ensures IsCanonicalNumeral(Decimal(n))
  {
    if n < 0 {
      assert Decimal(n)[1..] == Digits(-n);
    }
  }

  lemma {:induction false} LeadingDigitPositive(s: string)
    requires NoLeadingZero(s) && s != "0"
    ensures DigitsValue(s) >= 1
  {
    if |s| > 1 {
      var p := s[..|s| - 1];
      assert p[0] == s[0];
      LeadingDigitPositive(p);
    }
  }

  /** Appending digit `d` to the text of `q` is the text of `q * 10 + d`. */
  lemma AppendDigit(q: nat, d: nat)
    requires q >= 1 && d < 10
    ensures Digits(q * 10 + d) == Digits(q) + [DigitChar(d)]
  {
    var n := q * 10 + d;
    assert n >= 10 && n / 10 == q && n % 10 == d;
  }

  /** A digit run without a leading zero is the digit text of its value. */
  lemma {:induction false} CanonicalDigitsUnique(s: string)
    requires NoLeadingZero(s)
    ensures s == Digits(DigitsValue(s))
  {
    if |s| > 1 {
      var p := s[..|s| - 1];
      var last := s[|s| - 1];
      assert p[0] == s[0];
      assert s[0] != '0';
      LeadingDigitPositive(p);
      CanonicalDigitsUnique(p);
      assert DigitsValue(s) == DigitsValue(p) * 10 + DigitValue(last);
      AppendDigit(DigitsValue(p), DigitValue(last));
      assert DigitChar(DigitValue(last)) == last;
      assert s == p + [last];
    } else {
      assert DigitChar(DigitValue(s[0])) == s[0];
    }
  }

  /** `Decimal(n)` is the only canonical numeral that reads as `n`: the
      runner's text of an integer is fixed, not merely readable. */
  lemma CanonicalNumeralUnique(s: string, n: int)
    requires IsCanonicalNumeral(s) && ParseInteger(s) == Some(n)
    ensures s == Decimal(n)
  {
    if s[0] == '-' {
      var t := s[1..];
      LeadingDigitPositive(t);
      CanonicalDigitsUnique(t);
      assert s == "-" + t;
    } else {
      CanonicalDigitsUnique(s);
    }
  }

  /** So different integers never share a decimal text. */
  lemma DecimalInjective(m: int, n: int)
    requires Decimal(m) == Decimal(n)
    ensures m == n
  {
    DecimalRoundTrip(m);
    DecimalRoundTrip(n);
  }
}

=== FILE: progress_contract.dfy ===
/** What the three progress stores have in common once the storage medium is
    set aside: a set of solved challenge ids and a points total. Marking a
    challenge awards its points the first time only. Each store is shown to
    follow `Award` in its own module. */
module ProgressContract {
  import opened Seqs

  datatype Summary = Summary(solved: set<string>, total: int)

  const Empty: Summary := Summary({}, 0)

  /** Marking `id` solved with `points`. */
  function Award(s: Summary, id: string, points: int): Summary {
    if id in s.solved then s else Summary(s.solved + {id}, s.total + points)
  }

  /** Marking the same challenge again, with any points, changes nothing. */
  lemma AwardIdempotent(s: Summary, id: string, p: int, q: int)
    ensures Award(Award(s, id, p), id, q) == Award(s, id, p)
    ensures id in Award(s, id, p).solved
  {
  }

  /** A sequence of (id, points) marks applied in order from `s`. */
  function Replay(s: Summary, marks: seq<(string, int)>): Summary
    decreases |marks|
  {
    if marks == [] then s
    else Award(Replay(s, marks[..|marks| - 1]), marks[|marks| - 1].0, marks[|marks| - 1].1)
  }

  function IdsOf(marks: seq<(string, int)>): set<string> {
    set i | 0 <= i < |marks| :: marks[i].0
  }

  /** The points each mark earns: its own when its id has not been marked
      before, none otherwise. */
  function FirstAwards(marks: seq<(string, int)>): (r: seq<int>)
    ensures |r| == |marks|
  {
    seq(|marks|, i requires 0 <= i < |marks| => if marks[i].0 in IdsOf(marks[..i]) then 0 else marks[i].1)
  }

  /** Points are never awarded twice: from the empty summary, any sequence of
      marks leaves exactly the marked ids solved, and a total made of each
      id's first award. */
  lemma {:induction false} ReplayAwardsEachIdOnce(marks: seq<(string, int)>)
    ensures Replay(Empty, marks).solved == IdsOf(marks)
    ensures Replay(Empty, marks).total == Sum(FirstAwards(marks))
    decreases |marks|
  {
    if marks != [] {
      var init := marks[..|marks| - 1];
      var last := marks[|marks| - 1];
      ReplayAwardsEachIdOnce(init);
      assert IdsOf(marks) == IdsOf(init) + {last.0} by {
        forall x | x in IdsOf(marks) ensures x in IdsOf(init) + {last.0} {
          var i :| 0 <= i < |marks| && marks[i].0 == x;
          if i < |marks| - 1 {
            assert init[i].0 == x;
          }
        }
        forall x | x in IdsOf(init) ensures x in IdsOf(marks) {
          var i :| 0 <= i < |init| && init[i].0 == x;
          assert marks[i].0 == x;
        }
      }
      assert FirstAwards(marks)[..|marks| - 1] == FirstAwards(init) by {
        forall i | 0 <= i < |init| ensures FirstAwards(marks)[i] == FirstAwards(init)[i] {
          assert marks[..i] == init[..i];
        }
      }
      assert marks[..|marks| - 1] == init;
    }
  }
}

=== FILE: progress_db.dfy ===
/** The in-browser SQL store of src/db/database.ts. Loading the WASM engine
    and persisting to IndexedDB are left out: the state is the two tables,
    and `persisted` stands for a saved copy found at start-up. */
module ProgressDb {
  import opened Wrappers
  import opened Seqs
  import opened Challenges
  import opened ProgressContract
  import opened ProgressTables

  /** initDatabase (lines 82-103): a saved database is used as it is;
      otherwise the schema runs on an empty one. */
  function InitDatabase(persisted: Option<Tables>, now: string): (t: Tables)
    ensures persisted.Some? ==> t == persisted.value
    ensures persisted.None? ==> Consistent(t) && t.solved == [] && TotalOrZero(t) == 0
  {
    match persisted
    case Some(saved) => saved
    case None => FreshTables(now); ApplySchema(NoTables, now)
  }

  /** isChallengeSolvedDB (lines 122-128), read as a plain membership test
      on the id. */
  predicate IsSolvedDb(t: Tables, id: string): (b: bool)
    ensures b <==> exists i :: 0 <= i < |t.solved| && t.solved[i].challengeId == id
    ensures b <==> RowFor(t, id).Some?
  {
    HasRow(t, id)
  }

  /** getProgressDB (lines 164-179): the solved ids and the total, 0 when
      the progress row is missing. */
  function GetProgressDb(t: Tables): (p: UserProgress)
    ensures forall id :: id in p.solvedChallenges <==> IsSolvedDb(t, id)
    ensures Consistent(t) ==> Distinct(p.solvedChallenges)
    ensures t.progress.None? ==> p.totalPoints == 0
    ensures t.progress.Some? ==> p.totalPoints == t.progress.value.totalPoints
  {
    UserProgress(SolvedIds(t), TotalOrZero(t))
  }

  /** The state after a call, and what the call returned. */
  datatype Marked = Marked(tables: Tables, progress: UserProgress)

  /** markChallengeSolvedDB (lines 131-161); it answers with a fresh read of
      the progress after the update. */
  function MarkSolvedDb(t: Tables, id: string, points: int, now: string): (r: Marked)
    ensures r.progress == GetProgressDb(r.tables)
    ensures IsSolvedDb(r.tables, id)
    ensures Consistent(t) ==> Consistent(r.tables)
    ensures Consistent(t) ==> Summarize(r.tables) == Award(Summarize(t), id, points)
  {
    MarkRecordsId(t, id, points, now);
    var after := MarkTables(t, id, points, now);
    Marked(after, GetProgressDb(after))
  }

  /** resetProgressDB (lines 182-189). */
  function ResetProgressDb(t: Tables, now: string): (r: Tables)
    ensures GetProgressDb(r) == UserProgress([], 0)
    ensures forall id :: !IsSolvedDb(r, id)
    ensures Consistent(t) ==> Consistent(r)
  {
    ClearAll(t, now)
  }

  /** What getChallengeDetails reports for a solved challenge. */
  datatype Details = Details(solvedAt: string, attempts: int)

  /** getChallengeDetails (lines 192-211). */
  function GetChallengeDetails(t: Tables, id: string): (r: Option<Details>)
    ensures r.None? <==> !IsSolvedDb(t, id)
    ensures r.Some? ==> exists i :: 0 <= i < |t.solved| && t.solved[i].challengeId == id
                          && r.value == Details(t.solved[i].solvedAt, t.solved[i].attempts)
  {
    match RowFor(t, id)
    case Some(row) => Some(Details(row.solvedAt, row.attempts))
    case None => None
  }

  /** Solving an unsolved challenge several times: the first call awards
      the points, every call counts an attempt. */
  lemma RepeatedSolvesCountAttempts(t: Tables, id: string, marks: seq<Mark>)
    requires Consistent(t) && !IsSolvedDb(t, id) && |marks| >= 1
    ensures GetChallengeDetails(MarkRepeatedly(t, id, marks), id) == Some(Details(marks[0].now, |marks|))
    ensures GetProgressDb(MarkRepeatedly(t, id, marks)).totalPoints == GetProgressDb(t).totalPoints + marks[0].points
  {
    DetailsCountMarks(t, id, marks);
    AttemptsCountMarks(t, id, marks);
  }
}

=== FILE: progress_server.dfy ===
/** The HTTP progress API of server.js over the same two tables. Express,
    CORS, status codes and the file system are left out: each handler is a
    function from the tables and the request's parameters to the new tables
    and the JSON body it answers with. */
module ProgressServer {
  import opened Wrappers
  import opened Seqs
  import opened ProgressContract
  import opened ProgressTables
  import ProgressDb

  /** The JSON bodies the handlers answer with. */
  datatype Body =
    | ProgressBody(solvedChallenges: seq<string>, totalPoints: int)
    | StatusBody(solved: bool)
    | ResetBody(success: bool)
    | DetailsBody(details: Option<ProgressDb.Details>)

  datatype Answer = Answer(tables: Tables, body: Body)

  /** Start-up (lines 28-32): the schema script runs on whatever the
      database file already holds. */
  function Boot(t: Tables, now: string): (r: Tables)
    ensures Consistent(t) ==> r == t
    ensures r.solved == t.solved && r.progress.Some?
  {
    ApplySchema(t, now)
  }

  /** `points || 0` for the `points` field of the request body. The field is
      None when it is missing or holds another falsy value (null, false,
      NaN, the empty string); those give 0, and so does the number 0. */
  function PointsOrZero(points: Option<int>): (p: int)
    ensures points.None? ==> p == 0
    ensures points.Some? ==> p == points.value
  {
    match points
    case Some(p) => p
    case None => 0
  }

  /** The solved ids and the total, 0 when the progress row is missing;
      both the progress route and the solve route answer with it. */
  function ProgressSnapshot(t: Tables): (b: Body)
    ensures b.ProgressBody?
    ensures forall id :: id in b.solvedChallenges <==> HasRow(t, id)
    ensures b.totalPoints == TotalOrZero(t)
  {
    ProgressBody(SolvedIds(t), TotalOrZero(t))
  }

  /** GET /api/progress (lines 39-53). */
  function GetProgressRoute(t: Tables): (a: Answer)
    ensures a.tables == t
    ensures a.body.ProgressBody?
    ensures forall id :: id in a.body.solvedChallenges <==> HasRow(t, id)
    ensures a.body.totalPoints == TotalOrZero(t)
    ensures t.progress.None? ==> a.body.totalPoints == 0
    ensures Consistent(t) ==> Distinct(a.body.solvedChallenges)
  {
    Answer(t, ProgressSnapshot(t))
  }

  /** GET /api/challenges/:id/status (lines 56-66). */
  function StatusRoute(t: Tables, id: string): (a: Answer)
    ensures a.tables == t && a.body.StatusBody?
    ensures a.body.solved <==> id in GetProgressRoute(t).body.solvedChallenges
    ensures a.body.solved <==> DetailsRoute(t, id).body.details.Some?
  {
    Answer(t, StatusBody(HasRow(t, id)))
  }

  /** POST /api/challenges/:id/solve (lines 69-105). */
  function SolveRoute(t: Tables, id: string, points: Option<int>, now: string): (a: Answer)
    ensures a.body == GetProgressRoute(a.tables).body
    ensures HasRow(a.tables, id)
    ensures Consistent(t) ==> Consistent(a.tables)
    ensures Consistent(t) ==> Summarize(a.tables) == Award(Summarize(t), id, PointsOrZero(points))
  {
    MarkRecordsId(t, id, PointsOrZero(points), now);
    var after := MarkTables(t, id, PointsOrZero(points), now);
    Answer(after, ProgressSnapshot(after))
  }

  /** DELETE /api/progress (lines 108-117). */
  function ResetRoute(t: Tables, now: string): (a: Answer)
    ensures a.body == ResetBody(true)
    ensures a.tables.solved == [] && TotalOrZero(a.tables) == 0
    ensures Consistent(t) ==> Consistent(a.tables)
  {
    Answer(ClearAll(t, now), ResetBody(true))
  }

  /** GET /api/challenges/:id/details (lines 120-135). */
  function DetailsRoute(t: Tables, id: string): (a: Answer)
    ensures a.tables == t && a.body.DetailsBody?
    ensures a.body.details.None? <==> !HasRow(t, id)
    ensures a.body.details.Some? ==>
              exists row :: (row in t.solved && row.challengeId == id
                             && a.body.details.value == ProgressDb.Details(row.solvedAt, row.attempts))
  {
    match RowFor(t, id)
    case Some(row) => Answer(t, DetailsBody(Some(ProgressDb.Details(row.solvedAt, row.attempts))))
    case None => Answer(t, DetailsBody(None))
  }

  /** A solve without usable points awards nothing, but still records the
      challenge as solved. */
  lemma SolveWithoutPointsAwardsNothing(t: Tables, id: string, now: string)
    requires Consistent(t)
    ensures TotalOrZero(SolveRoute(t, id, None, now).tables) == TotalOrZero(t)
    ensures TotalOrZero(SolveRoute(t, id, Some(0), now).tables) == TotalOrZero(t)
    ensures HasRow(SolveRoute(t, id, None, now).tables, id)
  {
  }

  /** The server and the in-browser store change the tables alike, and the
      server's answer carries what the in-browser store returns. */
  lemma ServerAgreesWithBrowserStore(t: Tables, id: string, points: int, now: string)
    ensures SolveRoute(t, id, Some(points), now).tables == ProgressDb.MarkSolvedDb(t, id, points, now).tables
    ensures var p := ProgressDb.MarkSolvedDb(t, id, points, now).progress;
            SolveRoute(t, id, Some(points), now).body == ProgressBody(p.solvedChallenges, p.totalPoints)
    ensures ResetRoute(t, now).tables == ProgressDb.ResetProgressDb(t, now)
    ensures DetailsRoute(t, id).body.details == ProgressDb.GetChallengeDetails(t, id)
    ensures StatusRoute(t, id).body.solved == ProgressDb.IsSolvedDb(t, id)
  {
  }

  /** Solving again counts an attempt and leaves the total alone. */
  lemma SolveAgainKeepsTotal(t: Tables, id: string, points: Option<int>, now: string)
    requires HasRow(t, id)
    ensures TotalOrZero(SolveRoute(t, id, points, now).tables) == TotalOrZero(t)
    ensures SolvedIds(SolveRoute(t, id, points, now).tables) == SolvedIds(t)
  {
    var r := SolveRoute(t, id, points, now).tables;
    MarkAgainCountsAttempt(t, id, PointsOrZero(points), now);
    assert forall i :: 0 <= i < |t.solved| ==> r.solved[i].challengeId == t.solved[i].challengeId;
  }
}

=== FILE: progress_tables.dfy ===
/** The two SQL tables both database-backed stores use (the schema embedded
    in src/db/database.ts, lines 5-27, which server.js also runs), and the
    statements they issue against them. `now` stands for CURRENT_TIMESTAMP.
    The AUTOINCREMENT row id is not observable through any query the stores
    make and is left out. */
module ProgressTables {
  import opened Wrappers
  import opened Seqs
  import opened ProgressContract

  /** A row of `solved_challenges`. */
  datatype SolvedRow = SolvedRow(challengeId: string, solvedAt: string, points: int, attempts: int)

  /** The row of `user_progress` (its id is fixed to 1 by a CHECK). */
  datatype ProgressRow = ProgressRow(totalPoints: int, lastUpdated: string)

  datatype Tables = Tables(solved: seq<SolvedRow>, progress: Option<ProgressRow>)

  /** A database in which the schema has not run. */
  const NoTables: Tables := Tables([], None)

  /** The error SQLite raises for a second row with the same challenge_id. */
  const UniqueViolation: string := "UNIQUE constraint failed: solved_challenges.challenge_id"

  /** The schema script: CREATE TABLE IF NOT EXISTS keeps existing rows, and
      INSERT OR IGNORE adds the progress row with total 0 only when it is
      missing. */
  function ApplySchema(t: Tables, now: string): (r: Tables)
    ensures r.solved == t.solved
    ensures r.progress.Some?
    ensures t.progress.Some? ==> r.progress == t.progress
    ensures t.progress.None? ==> r.progress.value.totalPoints == 0
  {
    Tables(t.solved, if t.progress.Some? then t.progress else Some(ProgressRow(0, now)))
  }

  /** SELECT challenge_id FROM solved_challenges. */
  function SolvedIds(t: Tables): (ids: seq<string>)
    ensures |ids| == |t.solved|
    ensures forall i :: 0 <= i < |ids| ==> ids[i] == t.solved[i].challengeId
  {
    seq(|t.solved|, i requires 0 <= i < |t.solved| => t.solved[i].challengeId)
  }

  /** SELECT 1 FROM solved_challenges WHERE challenge_id = id LIMIT 1. */
  predicate HasRow(t: Tables, id: string) {
    id in SolvedIds(t)
  }

  /** SELECT total_points FROM user_progress WHERE id = 1, read as 0 when no
      row comes back. */
  function TotalOrZero(t: Tables): int {
    match t.progress
    case Some(row) => row.totalPoints
    case None => 0
  }

  /** The row for `id`, as a WHERE challenge_id = id query returns it. */
  function RowFor(t: Tables, id: string): (r: Option<SolvedRow>)
    ensures r.None? <==> !HasRow(t, id)
    ensures r.Some? ==> r.value in t.solved && r.value.challengeId == id
  {
    match FirstWhere(t.solved, (row: SolvedRow) => row.challengeId == id)
    case Some(i) => Some(t.solved[i])
    case None => None
  }

  /** The constraints the schema imposes on the tables: challenge_id is
      UNIQUE, attempts start at 1 and only grow, and the progress row
      exists once the schema has run. */
  predicate Consistent(t: Tables) {
    && Distinct(SolvedIds(t))
    && (forall i :: 0 <= i < |t.solved| ==> t.solved[i].attempts >= 1)
    && t.progress.Some?
  }

  /** INSERT INTO solved_challenges (challenge_id, points): the other columns
      take their defaults; a duplicate id violates the UNIQUE constraint. */
  function Insert(t: Tables, id: string, points: int, now: string): (r: Result<Tables, string>)
    ensures r.Err? <==> HasRow(t, id)
    ensures r.Err? ==> r.error == UniqueViolation
    ensures r.Ok? ==> r.value.solved == t.solved + [SolvedRow(id, now, points, 1)]
                      && r.value.progress == t.progress
  {
    if HasRow(t, id) then Err(UniqueViolation)
    else Ok(Tables(t.solved + [SolvedRow(id, now, points, 1)], t.progress))
  }

  /** UPDATE user_progress SET total_points = total_points + points WHERE id = 1. */
  function AddPoints(t: Tables, points: int, now: string): (r: Tables)
    ensures r.solved == t.solved
    ensures r.progress.Some? <==> t.progress.Some?
    ensures t.progress.Some? ==> TotalOrZero(r) == TotalOrZero(t) + points
  {
    match t.progress
    case Some(row) => Tables(t.solved, Some(ProgressRow(row.totalPoints + points, now)))
    case None => t
  }

  /** UPDATE solved_challenges SET attempts = attempts + 1 WHERE challenge_id = id. */
  function CountAttempt(t: Tables, id: string): (r: Tables)
    ensures |r.solved| == |t.solved| && r.progress == t.progress
    ensures forall i :: 0 <= i < |t.solved| ==>
              r.solved[i] == if t.solved[i].challengeId == id
                             then t.solved[i].(attempts := t.solved[i].attempts + 1)
                             else t.solved[i]
  {
    Tables(seq(|t.solved|, i requires 0 <= i < |t.solved| =>
                 if t.solved[i].challengeId == id then t.solved[i].(attempts := t.solved[i].attempts + 1)
                 else t.solved[i]),
           t.progress)
  }

  /** DELETE FROM solved_challenges, then total_points = 0. */
  function ClearAll(t: Tables, now: string): (r: Tables)
    ensures r.solved == []
    ensures TotalOrZero(r) == 0
    ensures r.progress.Some? <==> t.progress.Some?
  {
    Tables([], if t.progress.Some? then Some(ProgressRow(0, now)) else None)
  }

  /** The statements both stores issue to mark a challenge solved: insert
      and add its points when no row exists, count one more attempt
      otherwise. */
  function MarkTables(t: Tables, id: string, points: int, now: string): (r: Tables)
    ensures HasRow(r, id)
    ensures r.progress.Some? <==> t.progress.Some?
    ensures !HasRow(t, id) ==> r.solved == t.solved + [SolvedRow(id, now, points, 1)]
    ensures !HasRow(t, id) && t.progress.Some? ==> TotalOrZero(r) == TotalOrZero(t) + points
    ensures HasRow(t, id) ==> r.progress == t.progress && SolvedIds(r) == SolvedIds(t)
  {
    if !HasRow(t, id) then
      match Insert(t, id, points, now)
      case Ok(inserted) =>
        var r := AddPoints(inserted, points, now);
        assert SolvedIds(r)[|t.solved|] == id;
        r
      case Err(_) => assert false; t
    else
      CountAttempt(t, id)
  }

  /** The schema run on an empty database gives a consistent store with no
      solved rows and a total of 0. */
  lemma FreshTables(now: string)
    ensures Consistent(ApplySchema(NoTables, now))
    ensures ApplySchema(NoTables, now).solved == []
    ensures TotalOrZero(ApplySchema(NoTables, now)) == 0
  {
  }

  /** Running the schema again, as server.js does on every start, changes
      nothing. */
  lemma SchemaRerunIsHarmless(t: Tables, now: string, later: string)
    ensures ApplySchema(ApplySchema(t, now), later) == ApplySchema(t, now)
    ensures Consistent(t) ==> ApplySchema(t, later) == t
  {
  }

  /** A first mark adds one row, for that id, with the given points and one
      attempt, and adds the points to the total. */
  lemma MarkNewAddsRow(t: Tables, id: string, points: int, now: string)
    requires Consistent(t) && !HasRow(t, id)
    ensures MarkTables(t, id, points, now).solved == t.solved + [SolvedRow(id, now, points, 1)]
    ensures TotalOrZero(MarkTables(t, id, points, now)) == TotalOrZero(t) + points
  {
  }

  /** A later mark adds one attempt to that id's row and changes nothing
      else: no other row, and not the total. */
  lemma MarkAgainCountsAttempt(t: Tables, id: string, points: int, now: string)
    requires HasRow(t, id)
    ensures var r := MarkTables(t, id, points, now);
            && r.progress == t.progress
            && |r.solved| == |t.solved|
            && (forall i :: 0 <= i < |t.solved| && t.solved[i].challengeId != id ==> r.solved[i] == t.solved[i])
            && (forall i :: 0 <= i < |t.solved| && t.solved[i].challengeId == id ==>
                  r.solved[i].attempts == t.solved[i].attempts + 1
                  && r.solved[i].points == t.solved[i].points
                  && r.solved[i].solvedAt == t.solved[i].solvedAt)
  {
  }

  /** Marking keeps the schema's constraints: in particular there is never
      a second row for the same id. */
  lemma MarkKeepsConsistent(t: Tables, id: string, points: int, now: string)
    requires Consistent(t)
    ensures Consistent(MarkTables(t, id, points, now))
  {
    var r := MarkTables(t, id, points, now);
    if !HasRow(t, id) {
      var ids := SolvedIds(r);
      assert ids == SolvedIds(t) + [id];
      forall i, j | 0 <= i < j < |ids| ensures ids[i] != ids[j] {
        if j == |ids| - 1 {
          assert ids[i] == SolvedIds(t)[i];
        }
      }
    } else {
      assert SolvedIds(r) == SolvedIds(t);
    }
  }

  /** Clearing keeps the constraints and leaves nothing solved. */
  lemma ClearKeepsConsistent(t: Tables, now: string, id: string)
    requires Consistent(t)
    ensures Consistent(ClearAll(t, now))
    ensures !HasRow(ClearAll(t, now), id)
  {
  }

  /** The tables seen through the common contract. */
  function Summarize(t: Tables): Summary {
    Summary((set i | 0 <= i < |t.solved| :: t.solved[i].challengeId), TotalOrZero(t))
  }

  /** On consistent tables marking follows the common contract. */
  lemma MarkFollowsAward(t: Tables, id: string, points: int, now: string)
    requires Consistent(t)
    ensures Summarize(MarkTables(t, id, points, now)) == Award(Summarize(t), id, points)
  {
    var r := MarkTables(t, id, points, now);
    if !HasRow(t, id) {
      assert forall i :: 0 <= i < |t.solved| ==> r.solved[i] == t.solved[i];
      assert r.solved[|t.solved|].challengeId == id;
      assert forall i :: 0 <= i < |t.solved| ==> t.solved[i].challengeId != id;
    } else {
      var k :| 0 <= k < |SolvedIds(t)| && SolvedIds(t)[k] == id;
      assert id in Summarize(t).solved by {
        assert t.solved[k].challengeId == id;
      }
      assert forall i :: 0 <= i < |t.solved| ==> r.solved[i].challengeId == t.solved[i].challengeId;
    }
  }

  /** One call of markChallengeSolved: the points it passes and the time it
      runs at. */
  datatype Mark = Mark(points: int, now: string)

  /** The tables after marking `id` once for each entry of `marks`, in
      order. */
  function MarkRepeatedly(t: Tables, id: string, marks: seq<Mark>): Tables
    decreases |marks|
  {
    if marks == [] then t
    else
      var last := marks[|marks| - 1];
      MarkTables(MarkRepeatedly(t, id, marks[..|marks| - 1]), id, last.points, last.now)
  }

  /** attempts counts the marks: after a run of marks of an unsolved id, the
      tables hold one more row, for that id, with the points and time of
      the first mark whatever the later ones passed, and one attempt per
      mark; only the first mark's points were awarded. */
  lemma {:induction false} AttemptsCountMarks(t: Tables, id: string, marks: seq<Mark>)
    requires Consistent(t) && !HasRow(t, id) && |marks| >= 1
    ensures MarkRepeatedly(t, id, marks).solved
            == t.solved + [SolvedRow(id, marks[0].now, marks[0].points, |marks|)]
    ensures TotalOrZero(MarkRepeatedly(t, id, marks)) == TotalOrZero(t) + marks[0].points
    ensures MarkRepeatedly(t, id, marks).progress.Some?
    decreases |marks|
  {
    var init := marks[..|marks| - 1];
    if |marks| == 1 {
      assert init == [];
      MarkNewAddsRow(t, id, marks[0].points, marks[0].now);
    } else {
      var prev := MarkRepeatedly(t, id, init);
      AttemptsCountMarks(t, id, init);
      assert init[0] == marks[0];
      assert SolvedIds(prev)[|t.solved|] == id;
      assert HasRow(prev, id);
      var r := CountAttempt(prev, id);
      assert forall i :: 0 <= i < |t.solved| ==> t.solved[i].challengeId != id;
      assert r.solved == t.solved + [SolvedRow(id, marks[0].now, marks[0].points, |marks|)];
    }
  }

  /** After a run of marks of an unsolved id, a lookup of that id finds its
      row with the first mark's time and points and one attempt per mark. */
  lemma DetailsCountMarks(t: Tables, id: string, marks: seq<Mark>)
    requires Consistent(t) && !HasRow(t, id) && |marks| >= 1
    ensures RowFor(MarkRepeatedly(t, id, marks), id)
            == Some(SolvedRow(id, marks[0].now, marks[0].points, |marks|))
  {
    AttemptsCountMarks(t, id, marks);
    assert forall i :: 0 <= i < |t.solved| ==> t.solved[i].challengeId != id;
    RowOfLast(t.solved, SolvedRow(id, marks[0].now, marks[0].points, |marks|));
  }

  /** Appending a row with a fresh id makes it the row found for that id. */
  lemma RowOfLast(rows: seq<SolvedRow>, row: SolvedRow)
    requires forall i :: 0 <= i < |rows| ==> rows[i].challengeId != row.challengeId
    ensures FirstWhere(rows + [row], (r: SolvedRow) => r.challengeId == row.challengeId) == Some(|rows|)
  {
    var p := (r: SolvedRow) => r.challengeId == row.challengeId;
    assert FirstWhere([row], p) == Some(0);
    FirstWhereAfterPrefix(rows, [row], p);
  }

  /** Marking records the id, and on consistent tables keeps them
      consistent and follows the common contract. */
  lemma MarkRecordsId(t: Tables, id: string, points: int, now: string)
    ensures HasRow(MarkTables(t, id, points, now), id)
    ensures Consistent(t) ==> Consistent(MarkTables(t, id, points, now))
    ensures Consistent(t) ==> Summarize(MarkTables(t, id, points, now)) == Award(Summarize(t), id, points)
  {
    var r := MarkTables(t, id, points, now);
    if !HasRow(t, id) {
      assert SolvedIds(r)[|t.solved|] == id;
    } else {
      var k :| 0 <= k < |SolvedIds(t)| && SolvedIds(t)[k] == id;
      assert SolvedIds(r)[k] == id;
    }
    if Consistent(t) {
      MarkKeepsConsistent(t, id, points, now);
      MarkFollowsAward(t, id, points, now);
    }
  }
}

=== FILE: seqs.dfy ===
/** Sequence operations shared by the catalog queries and the progress
    stores: the first element that satisfies a test, order-preserving
    filtering, removal of repeats in first-occurrence order (what spreading a
    JavaScript `Set` built from an array yields), and sums. */
module Seqs {
  import opened Wrappers

  predicate Distinct<T(==)>(s: seq<T>) {
    forall i, j :: 0 <= i < j < |s| ==> s[i] != s[j]
  }

  /** The position of the first occurrence of `x`. */
  function FirstIndex<T(==)>(s: seq<T>, x: T): (n: nat)
    requires x in s
    ensures n < |s| && s[n] == x
    ensures forall i :: 0 <= i < n ==> s[i] != x
  {
    if s[0] == x then 0 else 1 + FirstIndex(s[1..], x)
  }

  lemma {:induction false} FirstIndexOfPrefix<T>(s: seq<T>, m: nat, x: T)
    requires m <= |s| && x in s[..m]
    ensures FirstIndex(s, x) == FirstIndex(s[..m], x)
  {
    var k := FirstIndex(s[..m], x);
    var f := FirstIndex(s, x);
    assert s[k] == x;
    assert f <= k;
    assert s[..m][f] == x;
  }

  /** The first position whose element passes `p`, if any. */
  function FirstWhere<T>(s: seq<T>, p: T -> bool): (r: Option<nat>)
    ensures r.Some? ==> r.value < |s| && p(s[r.value])
    ensures r.Some? ==> forall i :: 0 <= i < r.value ==> !p(s[i])
    ensures r.None? <==> forall i :: 0 <= i < |s| ==> !p(s[i])
  {
    if s == [] then None
    else if p(s[0]) then Some(0)
    else match FirstWhere(s[1..], p)
      case None => None
      case Some(i) => Some(i + 1)
  }

  /** A match in `a` is found before anything in `b` is looked at. */
  lemma {:induction false} FirstWhereInPrefix<T>(a: seq<T>, b: seq<T>, p: T -> bool)
    requires FirstWhere(a, p).Some?
    ensures FirstWhere(a + b, p) == FirstWhere(a, p)
  {
    assert (a + b)[0] == a[0];
    if !p(a[0]) {
      assert (a + b)[1..] == a[1..] + b;
      FirstWhereInPrefix(a[1..], b, p);
    }
  }

  /** With no match in `a`, the search goes on into `b`. */
  lemma {:induction false} FirstWhereAfterPrefix<T>(a: seq<T>, b: seq<T>, p: T -> bool)
    requires FirstWhere(a, p).None? && FirstWhere(b, p).Some?
    ensures FirstWhere(a + b, p) == Some(|a| + FirstWhere(b, p).value)
  {
    if a == [] {
      assert a + b == b;
    } else {
      assert (a + b)[0] == a[0];
      assert (a + b)[1..] == a[1..] + b;
      FirstWhereAfterPrefix(a[1..], b, p);
    }
  }

  /** `Array.prototype.filter`. */
  function Filter<T>(s: seq<T>, p: T -> bool): (r: seq<T>)
    ensures |r| <= |s|
    ensures forall i :: 0 <= i < |r| ==> p(r[i])
  {
    if s == [] then []
    else if p(s[0]) then [s[0]] + Filter(s[1..], p)
    else Filter(s[1..], p)
  }

  /** When nothing passes, nothing is kept. */
  lemma {:induction false} FilterNoneSelected<T>(s: seq<T>, p: T -> bool)
    requires forall i :: 0 <= i < |s| ==> !p(s[i])
    ensures Filter(s, p) == []
  {
    if s != [] {
      FilterNoneSelected(s[1..], p);
    }
  }

  /** `r` can be obtained from `s` by deleting elements (greedy matching
      decides this). */
  predicate IsSubsequence<T(==)>(r: seq<T>, s: seq<T>)
    decreases |s|
  {
    if r == [] then true
    else if s == [] then false
    else if r[0] == s[0] then IsSubsequence(r[1..], s[1..])
    else IsSubsequence(r, s[1..])
  }

  /** Filtering keeps exactly the passing elements, each as often as it
      occurs, in their original order. */
  lemma {:induction false} FilterIsExact<T>(s: seq<T>, p: T -> bool)
    ensures IsSubsequence(Filter(s, p), s)
    ensures forall x :: multiset(Filter(s, p))[x] == if p(x) then multiset(s)[x] else 0
  {
    if s != [] {
      FilterIsExact(s[1..], p);
      assert s == [s[0]] + s[1..];
      if p(s[0]) {
        assert Filter(s, p)[1..] == Filter(s[1..], p);
      }
    }
  }

  /** Repeats removed, each element kept where it first occurs. */
  function Dedupe<T(==)>(s: seq<T>): (r: seq<T>)
    ensures Distinct(r)
    ensures forall i :: 0 <= i < |r| ==> r[i] in s
    ensures forall i :: 0 <= i < |s| ==> s[i] in r
  {
    if s == [] then []
    else
      var d := Dedupe(s[..|s| - 1]);
      var x := s[|s| - 1];
      assert forall i :: 0 <= i < |s| - 1 ==> s[i] == s[..|s| - 1][i];
      if x in d then d else d + [x]
  }

  /** Dedupe keeps the order of first occurrences. */
  lemma {:induction false} DedupeFirstOccurrenceOrder<T>(s: seq<T>)
    ensures forall i, j :: 0 <= i < j < |Dedupe(s)| ==>
              FirstIndex(s, Dedupe(s)[i]) < FirstIndex(s, Dedupe(s)[j])
  {
    if s != [] {
      var init := s[..|s| - 1];
      var x := s[|s| - 1];
      var d := Dedupe(init);
      DedupeFirstOccurrenceOrder(init);
      forall y | y in d
        ensures FirstIndex(s, y) == FirstIndex(init, y)
      {
        FirstIndexOfPrefix(s, |s| - 1, y);
      }
      if x !in d {
        assert FirstIndex(s, x) == |s| - 1 by {
          assert x !in init;
          assert forall i :: 0 <= i < |s| - 1 ==> s[i] == init[i];
        }
      }
    }
  }

  function Sum(s: seq<int>): int {
    if s == [] then 0 else Sum(s[..|s| - 1]) + s[|s| - 1]
  }

  lemma {:induction false} SumConcat(a: seq<int>, b: seq<int>)
    ensures Sum(a + b) == Sum(a) + Sum(b)
    decreases |b|
  {
    if b == [] {
      assert a + b == a;
    } else {
      assert (a + b)[..|a + b| - 1] == a + b[..|b| - 1];
      SumConcat(a, b[..|b| - 1]);
    }
  }

  lemma {:induction false} SumNonNegative(s: seq<int>)
    requires forall i :: 0 <= i < |s| ==> s[i] >= 0
    ensures Sum(s) >= 0
  {
    if s != [] {
      SumNonNegative(s[..|s| - 1]);
    }
  }
}

=== FILE: test_runner.dfy ===
/** The test harness of src/utils/testRunner.ts: transpile the submission
    once, find its entry point, then for every test case build a small
    program that calls the entry point on the case's input, run it, render
    what it returns and compare that with the expected text.

    The TypeScript compiler and the JavaScript engine are not modelled; they
    are parameters. The engine is split along the statements of the program
    the runner builds: parsing the whole text (`new Function`), running the
    submission's own top-level statements, the `typeof` guard, and the call.
    Everything proved here holds for every behaviour of those parameters. */
module TestRunner {
  import opened Wrappers
  import opened JsText
  import opened JsValues
  import opened Normalize
  import opened EntryPoint
  import opened Challenges

  const CompileErrorPrefix: string := "TypeScript compilation error: "

  /** How a piece of JavaScript ends when it does not fall through. */
  datatype Outcome = Returns(value: Value) | Throws(shown: string)

  /** The JavaScript engine as the runner sees it.
      - `syntaxError`: the message of the SyntaxError `new Function` raises
        for a program text, if any;
      - `topLevel`: how the submission's own statements end when run as the
        start of the function body (None: they fall through);
      - `isFunction`: whether `typeof name === 'function'` after them;
      - `call`: how calling that function on the argument text ends;
        `Throws` carries `String(e)` of the thrown value. */
  datatype Engine = Engine(
    syntaxError: string -> Option<string>,
    topLevel: string -> Option<Outcome>,
    isFunction: (string, string) -> bool,
    call: (string, string, string) -> Outcome)

  /** How one case's program ends: `new Function` rejected it (outer catch),
      running it threw (inner catch), or it returned a value. */
  datatype Completion = ParseFault(message: string) | Threw(shown: string) | Returned(value: Value)

  /** What the template writes for `fnName`: the name, or `null`. */
  function Callee(fn: Option<string>): string {
    match fn
    case Some(name) => name
    case None => "null"
  }

  /** The body handed to `new Function` for one case (lines 46-55). An input
      is spliced in as it is: `input || ''` only turns an empty input into an
      empty input. */
  function CaseProgram(js: string, fn: Option<string>, input: string): string {
    ProgramHead(js, fn) + input + ProgramTail
  }

  function ProgramHead(js: string, fn: Option<string>): string {
    "\n        " + js
    + "\n        \n        // Execute the main function\n        if (typeof " + Callee(fn)
    + " === 'function') {\n          const result = " + Callee(fn) + "("
  }

  const ProgramTail: string := ")" + ProgramEnd
  const ProgramEnd: string := ";\n          return result;\n        }\n        return undefined;\n      "

  /** Running one case's program: parse, the submission's statements, the
      guard, the call. With no entry point the guard reads `typeof null`,
      which is `'object'`. The split takes the input to be an argument list
      that stays inside the call's parentheses; an input that closes them
      and adds statements of its own is not modelled. */
  function RunProgram(e: Engine, js: string, fn: Option<string>, input: string): (r: Completion)
    ensures r.ParseFault? <==> e.syntaxError(CaseProgram(js, fn, input)).Some?
    ensures r.ParseFault? ==> r.message == e.syntaxError(CaseProgram(js, fn, input)).value
    ensures e.syntaxError(CaseProgram(js, fn, input)).None? && e.topLevel(js).Some? ==>
              r == Completed(e.topLevel(js).value)
    ensures e.syntaxError(CaseProgram(js, fn, input)).None? && e.topLevel(js).None? ==>
              r == if fn.Some? && e.isFunction(js, fn.value) then Completed(e.call(js, fn.value, input))
                   else Returned(Undefined)
  {
    match e.syntaxError(CaseProgram(js, fn, input))
    case Some(message) => ParseFault(message)
    case None =>
      match e.topLevel(js)
      case Some(o) => Completed(o)
      case None =>
        if fn.Some? && e.isFunction(js, fn.value) then Completed(e.call(js, fn.value, input))
        else Returned(Undefined)
  }

  /** A `return` or a throw that ends the program. */
  function Completed(o: Outcome): (c: Completion)
    ensures o.Returns? <==> c.Returned?
  {
    match o
    case Returns(v) => Returned(v)
    case Throws(shown) => Threw(shown)
  }

  /** The result echoes the case's id, input and expected output. */
  predicate Echoes(r: TestResult, tc: TestCase) {
    r.testId == tc.id && r.input == tc.input && r.expectedOutput == tc.expectedOutput
  }

  /** A result that carries an error failed and shows no output. */
  predicate FaultShape(r: TestResult) {
    r.error.Some? ==> !r.passed && r.actualOutput == ""
  }

  function Faulted(tc: TestCase, message: string): TestResult {
    TestResult(tc.id, false, tc.input, tc.expectedOutput, "", Some(message))
  }

  /** The result of one case once the transpiled code and the entry point are
      known (lines 44-120). */
  function RunCase(e: Engine, js: string, fn: Option<string>, tc: TestCase): (r: TestResult)
    ensures Echoes(r, tc) && FaultShape(r)
    ensures r.error.None? <==>
              RunProgram(e, js, fn, tc.input).Returned? && Render(RunProgram(e, js, fn, tc.input).value).Ok?
    ensures r.error.None? ==>
              && r.actualOutput == Render(RunProgram(e, js, fn, tc.input).value).value
              && (r.passed <==> Norm(r.actualOutput) == Norm(tc.expectedOutput))
  {
    match RunProgram(e, js, fn, tc.input)
    case ParseFault(message) => Faulted(tc, message)
    case Threw(shown) => Faulted(tc, shown)
    case Returned(v) =>
      match Render(v)
      case Err(message) => Faulted(tc, message)
      case Ok(out) =>
        PassesIffSameNorm(out, tc.expectedOutput);
        TestResult(tc.id, Passes(out, tc.expectedOutput), tc.input, tc.expectedOutput, out, None)
  }

  /** executeCode as a whole, case by case. */
  function Execute(code: string, cases: seq<TestCase>,
                   transpile: string -> Result<string, string>, e: Engine): seq<TestResult>
  {
    match transpile(code)
    case Err(message) =>
      seq(|cases|, i requires 0 <= i < |cases| => Faulted(cases[i], CompileErrorPrefix + message))
    case Ok(js) =>
      var fn := FindEntryPoint(js);
      seq(|cases|, i requires 0 <= i < |cases| => RunCase(e, js, fn, cases[i]))
  }

  /** executeCode (lines 20-124): one result per case, in order. `transpile`
      yields the transpiled text or the shown text of what the compiler
      threw. */
  method ExecuteCode(code: string, cases: seq<TestCase>,
                     transpile: string -> Result<string, string>, e: Engine)
    returns (results: seq<TestResult>)
    ensures |results| == |cases|
    ensures forall i :: 0 <= i < |cases| ==> Echoes(results[i], cases[i]) && FaultShape(results[i])
    ensures transpile(code).Err? ==>
              forall i :: 0 <= i < |cases| ==>
                results[i].error == Some(CompileErrorPrefix + transpile(code).error)
    ensures results == Execute(code, cases, transpile, e)
  {
    var compiled := transpile(code);
    if compiled.Err? {
      results := FailAll(cases, CompileErrorPrefix + compiled.error);
    } else {
      var js := compiled.value;
      results := RunAll(e, js, FindEntryPoint(js), cases);
    }
  }

  /** The compile-fault path (lines 29-36): the same error for every case. */
  method FailAll(cases: seq<TestCase>, message: string) returns (results: seq<TestResult>)
    ensures |results| == |cases|
    ensures forall i :: 0 <= i < |cases| ==> results[i] == Faulted(cases[i], message)
  {
    results := [];
    for i := 0 to |cases|
      invariant |results| == i
      invariant forall j :: 0 <= j < i ==> results[j] == Faulted(cases[j], message)
    {
      results := results + [Faulted(cases[i], message)];
    }
  }

  /** The loop over the cases (lines 43-121): each iteration pushes exactly
      one result, the one for its own case. */
  method RunAll(e: Engine, js: string, fn: Option<string>, cases: seq<TestCase>)
    returns (results: seq<TestResult>)
    ensures |results| == |cases|
    ensures forall i :: 0 <= i < |cases| ==> results[i] == RunCase(e, js, fn, cases[i])
  {
    results := [];
    for i := 0 to |cases|
      invariant |results| == i
      invariant forall j :: 0 <= j < i ==> results[j] == RunCase(e, js, fn, cases[j])
    {
      var r := RunCase(e, js, fn, cases[i]);
      results := results + [r];
    }
  }

  /** A case's result depends on nothing but the submission, the engine and
      that case: changing, adding or removing other cases leaves it as it
      was, so a fault in one case stays in that case. */
  lemma CaseIsolation(code: string, cases1: seq<TestCase>, cases2: seq<TestCase>, i: nat, j: nat,
                      transpile: string -> Result<string, string>, e: Engine)
    requires i < |cases1| && j < |cases2| && cases1[i] == cases2[j]
    ensures Execute(code, cases1, transpile, e)[i] == Execute(code, cases2, transpile, e)[j]
  {
  }

  /** When the compiler throws, every case fails with its message behind the
      same prefix, and no case is run. */
  lemma CompileFaultReachesEveryCase(code: string, cases: seq<TestCase>,
                                     transpile: string -> Result<string, string>, e: Engine)
    requires transpile(code).Err?
    ensures forall i :: 0 <= i < |cases| ==>
              Execute(code, cases, transpile, e)[i] == Faulted(cases[i], CompileErrorPrefix + transpile(code).error)
  {
  }

  /** A case without a fault carries no error, and it passed exactly when
      the rendered value and the expected text normalise alike. */
  lemma NoFaultMeansJudged(e: Engine, js: string, fn: Option<string>, tc: TestCase, v: Value, out: string)
    requires RunProgram(e, js, fn, tc.input) == Returned(v)
    requires Render(v) == Ok(out)
    ensures RunCase(e, js, fn, tc).error.None?
    ensures RunCase(e, js, fn, tc).actualOutput == out
    ensures RunCase(e, js, fn, tc).passed <==> Norm(out) == Norm(tc.expectedOutput)
  {
  }

  /** A returned value whose strings and member names hold no whitespace
      renders as text that normalisation leaves alone, so the case passed
      exactly when the expected text normalises to that very text. */
  lemma WsFreeValueJudgedVerbatim(e: Engine, js: string, fn: Option<string>, tc: TestCase, v: Value)
    requires RunProgram(e, js, fn, tc.input) == Returned(v)
    requires WsFreeStrings(v) && Render(v).Ok?
    ensures NoWs(RunCase(e, js, fn, tc).actualOutput)
    ensures Norm(RunCase(e, js, fn, tc).actualOutput) == RunCase(e, js, fn, tc).actualOutput
    ensures RunCase(e, js, fn, tc).passed <==> Norm(tc.expectedOutput) == RunCase(e, js, fn, tc).actualOutput
  {
    RenderNoWs(v);
    NormOfNoWs(Render(v).value);
  }

  /** A fault in the program, whether caught by the inner catch (a throw) or
      the outer one (a syntax error, or a BigInt inside a returned aggregate),
      becomes that case's error with no output. */
  lemma FaultMeansFailed(e: Engine, js: string, fn: Option<string>, tc: TestCase)
    ensures match RunProgram(e, js, fn, tc.input)
            case ParseFault(m) => RunCase(e, js, fn, tc) == Faulted(tc, m)
            case Threw(shown) => RunCase(e, js, fn, tc) == Faulted(tc, shown)
            case Returned(v) =>
              (v.Arr? || v.Obj?) && HasBigInt(v) ==> RunCase(e, js, fn, tc) == Faulted(tc, BigIntMessage)
  {
  }

  /** With no `function <name>` in the transpiled code, every case whose
      program parses and whose top-level statements fall through yields
      `undefined`, which is compared like any other output and is not a
      fault, for inputs that stay inside the call's parentheses. */
  lemma NoEntryPointYieldsUndefined(code: string, cases: seq<TestCase>,
                                    transpile: string -> Result<string, string>, e: Engine, i: nat)
    requires transpile(code).Ok? && i < |cases|
    requires forall k :: 0 <= k < |transpile(code).value| ==> !MatchesAt(transpile(code).value, k)
    requires e.topLevel(transpile(code).value).None?
    requires e.syntaxError(CaseProgram(transpile(code).value, None, cases[i].input)).None?
    ensures Execute(code, cases, transpile, e)[i].error.None?
    ensures Execute(code, cases, transpile, e)[i].actualOutput == "undefined"
    ensures Execute(code, cases, transpile, e)[i].passed <==> Norm("undefined") == Norm(cases[i].expectedOutput)
  {
    var js := transpile(code).value;
    assert FindEntryPoint(js) == None;
    assert RunProgram(e, js, None, cases[i].input) == Returned(Undefined);
  }

  /** The input is spliced in verbatim: two inputs give the same program text
      exactly when they are the same text. */
  lemma ProgramDeterminesInput(js: string, fn: Option<string>, a: string, b: string)
    ensures CaseProgram(js, fn, a) == CaseProgram(js, fn, b) <==> a == b
  {
    if CaseProgram(js, fn, a) == CaseProgram(js, fn, b) {
      var h := ProgramHead(js, fn);
      assert |a| == |b|;
      assert a == CaseProgram(js, fn, a)[|h|..|h| + |a|];
      assert b == CaseProgram(js, fn, b)[|h|..|h| + |b|];
    }
  }

  /** An empty input calls the entry point with no arguments: the text
      `name()` stands right where the head of the program ends. */
  lemma EmptyInputCallsWithoutArguments(js: string, name: string)
    ensures var t := CaseProgram(js, Some(name), "");
            var k := |ProgramHead(js, Some(name))| - |name| - 1;
            0 <= k && k + |name| + 2 <= |t| && t[k..k + |name| + 2] == name + "()"
  {
    var p := "\n        " + js
             + "\n        \n        // Execute the main function\n        if (typeof " + name
             + " === 'function') {\n          const result = ";
    assert ProgramHead(js, Some(name)) == p + name + "(";
    var t := CaseProgram(js, Some(name), "");
    assert t == p + (name + "()") + ProgramEnd;
    assert t[|p|..|p| + |name| + 2] == name + "()";
  }
}

=== FILE: values.dfy ===
/** The values a challenge function can return, and how the test runner turns
    them into text (src/utils/testRunner.ts, lines 77-88): `undefined` and
    `null` by name, arrays and objects through JSON.stringify in its compact
    form (section 25.5.2 of ECMA-262), BigInts as their digits followed by
    `n`, everything else through `String`. */
module JsValues {
  import opened Wrappers
  import opened JsText
  import opened Numerals
  import opened JsonString

  /** Integral Numbers whose `String` and JSON forms are their own decimal
      digits: every integer up to 2^53 in magnitude is exact, and its
      shortest round-trip digits are the integer's own. Above 2^53 `String`
      pads the shortest round-trip digits with zeros, which is not
      modelled. */
  const PlainLimit: int := 9_007_199_254_740_993
  type Integral = n: int | -PlainLimit < n < PlainLimit

  /** A JavaScript value as the runner can observe it. Objects keep their
      own enumerable properties in property order. */
  datatype Value =
    | Undefined
    | Null
    | Bool(b: bool)
    | Num(n: Integral)
    | Str(s: string)
    | BigInt(k: int)
    | Arr(items: seq<Value>)
    | Obj(members: seq<(string, Value)>)

  /** The message of the TypeError JSON.stringify throws on a BigInt (V8). */
  const BigIntMessage: string := "Do not know how to serialize a BigInt"

  /** Whether JSON.stringify of `v` meets a BigInt, and so throws. */
  predicate HasBigInt(v: Value) {
    match v
    case BigInt(_) => true
    case Arr(items) => exists i :: 0 <= i < |items| && HasBigInt(items[i])
    case Obj(ms) => exists i :: 0 <= i < |ms| && HasBigInt(ms[i].1)
    case _ => false
  }

  /** The outcome of SerializeJSONProperty: no text (the member is left out
      of an object, and written `null` in an array), some text, or a throw. */
  datatype Serialized = Omitted | Text(text: string) | Throws

  /** JSON.stringify without indentation, restricted to the value kinds above. */
  function Serialize(v: Value): (r: Serialized)
    ensures r.Omitted? <==> v.Undefined?
    ensures r.Throws? <==> HasBigInt(v)
    ensures v.Null? ==> r == Text("null")
    ensures v.Bool? ==> r == Text(if v.b then "true" else "false")
    ensures v.Num? ==> r.Text? && IsCanonicalNumeral(r.text) && ParseInteger(r.text) == Some(v.n as int)
    ensures v.Str? ==> r.Text? && ReadString(r.text) == Some((v.s, []))
    ensures v.Arr? && r.Text? ==>
              SerializeElements(v.items).Some? && r.text == "[" + Join(SerializeElements(v.items).value, ",") + "]"
    ensures v.Obj? && r.Text? ==>
              SerializeMembers(v.members).Some? && r.text == "{" + Join(SerializeMembers(v.members).value, ",") + "}"
    decreases v, 0
  {
    match v
    case Undefined => Omitted
    case Null => Text("null")
    case Bool(b) => Text(if b then "true" else "false")
    case Num(n) =>
      DecimalRoundTrip(n);
      DecimalIsCanonical(n);
      Text(Decimal(n))
    case Str(s) =>
      QuoteRoundTrip(s, []);
      assert Quote(s) + [] == Quote(s);
      Text(Quote(s))
    case BigInt(_) => Throws
    case Arr(items) =>
      (match SerializeElements(items)
       case Some(parts) => Text("[" + Join(parts, ",") + "]")
       case None => Throws)
    case Obj(ms) =>
      (match SerializeMembers(ms)
       case Some(parts) => Text("{" + Join(parts, ",") + "}")
       case None => Throws)
  }

  /** SerializeJSONArray's element texts: an omitted element becomes `null`. */
  function SerializeElements(items: seq<Value>): (r: Option<seq<string>>)
    ensures r.None? <==> exists i :: 0 <= i < |items| && HasBigInt(items[i])
    ensures r.Some? ==> |r.value| == |items|
    ensures r.Some? ==> forall i :: 0 <= i < |items| ==>
              || (items[i].Undefined? && r.value[i] == "null")
              || (Serialize(items[i]).Text? && r.value[i] == Serialize(items[i]).text)
    decreases items, 0
  {
    if items == [] then Some([])
    else
      var head := SerializeElement(items[0]);
      var tail := SerializeElements(items[1..]);
      if head.Some? && tail.Some? then Some([head.value] + tail.value) else None
  }

  function SerializeElement(v: Value): (r: Option<string>)
    ensures r.None? <==> HasBigInt(v)
    decreases v, 1
  {
    match Serialize(v)
    case Omitted => Some("null")
    case Text(t) => Some(t)
    case Throws => None
  }

  /** SerializeJSONObject's member texts: `"key":value`, omitted members
      left out. */
  function SerializeMembers(ms: seq<(string, Value)>): (r: Option<seq<string>>)
    ensures r.None? <==> exists i :: 0 <= i < |ms| && HasBigInt(ms[i].1)
    ensures r.Some? ==> |r.value| == |Defined(ms)|
    decreases ms, 0
  {
    if ms == [] then Some([])
    else
      var head := SerializeMember(ms[0]);
      var tail := SerializeMembers(ms[1..]);
      if head.Some? && tail.Some? then Some(head.value + tail.value) else None
  }

  /** One member's text: none when its value is omitted. */
  function SerializeMember(m: (string, Value)): (r: Option<seq<string>>)
    ensures r.None? <==> HasBigInt(m.1)
    ensures r.Some? ==> |r.value| == if m.1.Undefined? then 0 else 1
    decreases m, 1
  {
    match Serialize(m.1)
    case Omitted => Some([])
    case Text(t) => Some([Quote(m.0) + ":" + t])
    case Throws => None
  }

  /** `texts` holds, at each position, `"key":value` for the member of
      `defined` at that position. */
  predicate MemberTextsMatch(texts: seq<string>, defined: seq<(string, Value)>) {
    |texts| == |defined| &&
    forall i :: 0 <= i < |defined| ==>
      && Serialize(defined[i].1).Text?
      && texts[i] == Quote(defined[i].0) + ":" + Serialize(defined[i].1).text
  }

  lemma MemberTextsCons(m: (string, Value), texts: seq<string>, defined: seq<(string, Value)>)
    requires MemberTextsMatch(texts, defined)
    requires Serialize(m.1).Text?
    ensures MemberTextsMatch([Quote(m.0) + ":" + Serialize(m.1).text] + texts, [m] + defined)
  {
    var t := [Quote(m.0) + ":" + Serialize(m.1).text] + texts;
    var d := [m] + defined;
    forall i | 1 <= i < |d|
      ensures t[i] == texts[i - 1] && d[i] == defined[i - 1]
    {
    }
  }

  /** The member texts are, in property order, `"key":value` for each member
      whose value is not `undefined`. */
  lemma {:induction false} MemberTextsInOrder(ms: seq<(string, Value)>)
    ensures SerializeMembers(ms).Some? ==> MemberTextsMatch(SerializeMembers(ms).value, Defined(ms))
  {
    var r := SerializeMembers(ms);
    if ms != [] && r.Some? {
      MemberTextsInOrder(ms[1..]);
      var head := SerializeMember(ms[0]);
      var tail := SerializeMembers(ms[1..]);
      assert head.Some? && tail.Some? && r.value == head.value + tail.value;
      if ms[0].1.Undefined? {
        assert head.value == [];
        assert Defined(ms) == Defined(ms[1..]);
        assert r.value == tail.value;
      } else {
        assert Defined(ms) == [ms[0]] + Defined(ms[1..]);
        assert Serialize(ms[0].1).Text?;
        assert head.value == [Quote(ms[0].0) + ":" + Serialize(ms[0].1).text];
        MemberTextsCons(ms[0], tail.value, Defined(ms[1..]));
      }
    }
  }

  /** The members whose value is not `undefined`, in order. */
  function Defined(ms: seq<(string, Value)>): (r: seq<(string, Value)>)
    ensures |r| <= |ms|
    ensures forall i :: 0 <= i < |r| ==> !r[i].1.Undefined? && r[i] in ms
  {
    if ms == [] then []
    else if ms[0].1.Undefined? then Defined(ms[1..])
    else [ms[0]] + Defined(ms[1..])
  }

  /** How the runner formats a returned value; an error carries the message
      of the exception JSON.stringify throws. */
  function Render(v: Value): (r: Result<string, string>)
    ensures r.Err? <==> (v.Arr? || v.Obj?) && HasBigInt(v)
    ensures r.Err? ==> r.error == BigIntMessage
    ensures v.Undefined? ==> r == Ok("undefined")
    ensures v.Null? ==> r == Ok("null")
    ensures v.Str? ==> r == Ok(v.s)
    ensures v.Bool? ==> r == Ok(if v.b then "true" else "false")
    ensures v.Num? ==> r.Ok? && IsCanonicalNumeral(r.value) && ParseInteger(r.value) == Some(v.n as int)
    ensures v.BigInt? ==> r.Ok? && |r.value| >= 2 && r.value[|r.value| - 1] == 'n'
                          && IsCanonicalNumeral(r.value[..|r.value| - 1])
                          && ParseInteger(r.value[..|r.value| - 1]) == Some(v.k)
    ensures (v.Arr? || v.Obj?) && r.Ok? ==> Serialize(v) == Text(r.value)
  {
    match v
    case Undefined => Ok("undefined")
    case Null => Ok("null")
    case Arr(_) | Obj(_) =>
      (match Serialize(v)
       case Text(t) => Ok(t)
       case _ => Err(BigIntMessage))
    case BigInt(k) =>
      DecimalRoundTrip(k);
      DecimalIsCanonical(k);
      assert (Decimal(k) + "n")[..|Decimal(k)|] == Decimal(k);
      Ok(Decimal(k) + "n")
    case Num(n) =>
      DecimalRoundTrip(n);
      DecimalIsCanonical(n);
      Ok(Decimal(n))
    case Bool(b) => Ok(if b then "true" else "false")
    case Str(s) => Ok(s)
  }

  /** Every string inside `v`, and every member name, is free of whitespace. */
  predicate WsFreeStrings(v: Value) {
    match v
    case Str(s) => NoWs(s)
    case Arr(items) => forall i :: 0 <= i < |items| ==> WsFreeStrings(items[i])
    case Obj(ms) => forall i :: 0 <= i < |ms| ==> NoWs(ms[i].0) && WsFreeStrings(ms[i].1)
    case _ => true
  }

  lemma DecimalNoWs(n: int)
    ensures NoWs(Decimal(n))
  {
    var r := Decimal(n);
    forall i | 0 <= i < |r| ensures !IsWs(r[i]) {
      if n < 0 && i > 0 {
        assert r[i] == r[1..][i - 1];
      }
    }
  }

  /** The only whitespace characters `s` holds are control characters. */
  predicate OnlyControlWs(s: string) {
    forall i :: 0 <= i < |s| && IsWs(s[i]) ==> s[i] < ' '
  }

  lemma EscapeCharNoWs(c: char)
    requires !IsWs(c) || c < ' '
    ensures NoWs(EscapeChar(c))
  {
    if c < ' ' && c != '\U{0008}' && c != '\t' && c != '\n' && c != '\U{000C}' && c != '\r' {
      var e := UnicodeEscape(c as int);
      forall i | 0 <= i < 6 ensures !IsWs(e[i]) {
        if i < 2 {
          assert e[i] == e[..2][i];
        }
      }
    }
  }

  lemma {:induction false} EscapeBodyNoWs(s: string)
    requires OnlyControlWs(s)
    ensures NoWs(EscapeBody(s))
  {
    if s != [] {
      EscapeCharNoWs(s[0]);
      EscapeBodyNoWs(s[1..]);
      NoWsConcat(EscapeChar(s[0]), EscapeBody(s[1..]));
    }
  }

  /** QuoteJSONString adds no whitespace of its own and escapes the control
      characters among the whitespace (TAB, LF, VT, FF, CR), so a string
      whose only whitespace is of that kind quotes to text without any. */
  lemma QuoteNoWs(s: string)
    requires OnlyControlWs(s)
    ensures NoWs(Quote(s))
  {
    EscapeBodyNoWs(s);
    NoWsConcat("\"", EscapeBody(s));
    NoWsConcat("\"" + EscapeBody(s), "\"");
  }

  lemma BracketedNoWs(open: char, body: string, close: char)
    requires NoWs(body) && !IsWs(open) && !IsWs(close)
    ensures NoWs([open] + body + [close])
  {
    NoWsConcat([open], body);
    NoWsConcat([open] + body, [close]);
  }

  /** Compact JSON puts no whitespace between tokens: a value whose strings
      and member names hold none serialises to text with none. */
  lemma {:induction false} SerializeNoWs(v: Value)
    requires WsFreeStrings(v)
    ensures Serialize(v).Text? ==> NoWs(Serialize(v).text)
    decreases v, 0
  {
    match v
    case Num(n) => DecimalNoWs(n);
    case Str(s) => QuoteNoWs(s);
    case Arr(items) =>
      ElementsNoWs(items);
      var parts := SerializeElements(items);
      if parts.Some? {
        JoinNoWs(parts.value, ",");
        BracketedNoWs('[', Join(parts.value, ","), ']');
        assert "[" + Join(parts.value, ",") + "]" == ['['] + Join(parts.value, ",") + [']'];
      }
    case Obj(ms) =>
      MembersNoWs(ms);
      var parts := SerializeMembers(ms);
      if parts.Some? {
        JoinNoWs(parts.value, ",");
        BracketedNoWs('{', Join(parts.value, ","), '}');
        assert "{" + Join(parts.value, ",") + "}" == ['{'] + Join(parts.value, ",") + ['}'];
      }
    case _ =>
  }

  lemma {:induction false} ElementsNoWs(items: seq<Value>)
    requires forall i :: 0 <= i < |items| ==> WsFreeStrings(items[i])
    ensures SerializeElements(items).Some? ==>
              forall i :: 0 <= i < |SerializeElements(items).value| ==> NoWs(SerializeElements(items).value[i])
    decreases items, 0
  {
    if items != [] {
      SerializeNoWs(items[0]);
      ElementsNoWs(items[1..]);
      var r := SerializeElements(items);
      if r.Some? {
        assert r.value == [SerializeElement(items[0]).value] + SerializeElements(items[1..]).value;
        forall i | 0 <= i < |r.value| ensures NoWs(r.value[i]) {
          if i > 0 {
            assert r.value[i] == SerializeElements(items[1..]).value[i - 1];
          }
        }
      }
    }
  }

  lemma {:induction false} MembersNoWs(ms: seq<(string, Value)>)
    requires forall i :: 0 <= i < |ms| ==> NoWs(ms[i].0) && WsFreeStrings(ms[i].1)
    ensures SerializeMembers(ms).Some? ==>
              forall i :: 0 <= i < |SerializeMembers(ms).value| ==> NoWs(SerializeMembers(ms).value[i])
    decreases ms, 0
  {
    if ms != [] {
      MemberNoWs(ms[0]);
      MembersNoWs(ms[1..]);
      var r := SerializeMembers(ms);
      if r.Some? {
        var head := SerializeMember(ms[0]).value;
        var tail := SerializeMembers(ms[1..]).value;
        assert r.value == head + tail;
        forall i | 0 <= i < |r.value| ensures NoWs(r.value[i]) {
          if i >= |head| {
            assert r.value[i] == tail[i - |head|];
          }
        }
      }
    }
  }

  lemma {:induction false} MemberNoWs(m: (string, Value))
    requires NoWs(m.0) && WsFreeStrings(m.1)
    ensures SerializeMember(m).Some? ==>
              forall i :: 0 <= i < |SerializeMember(m).value| ==> NoWs(SerializeMember(m).value[i])
    decreases m, 1
  {
    SerializeNoWs(m.1);
    if Serialize(m.1).Text? {
      QuoteNoWs(m.0);
      NoWsConcat(Quote(m.0), ":");
      NoWsConcat(Quote(m.0) + ":", Serialize(m.1).text);
    }
  }

  /** Hence every rendering of such a value is free of whitespace. */
  lemma RenderNoWs(v: Value)
    requires WsFreeStrings(v)
    ensures Render(v).Ok? ==> NoWs(Render(v).value)
  {
    match v
    case Num(n) => DecimalNoWs(n);
    case BigInt(k) =>
      DecimalNoWs(k);
      NoWsConcat(Decimal(k), "n");
    case Arr(_) => SerializeNoWs(v);
    case Obj(_) => SerializeNoWs(v);
    case _ =>
  }

  /** Strings are written without quotes, so a string whose characters spell
      another value's rendering cannot be told apart from that value. */
  lemma StringsShadowOtherValues()
    ensures Render(Str("null")) == Render(Null)
    ensures Render(Str("undefined")) == Render(Undefined)
    ensures Render(Str("1267n")) == Render(BigInt(1267))
  {
    assert Decimal(1267) == "1267" by {
      assert DigitChar(1) == '1';
      assert Digits(1) == "1";
      assert DigitChar(2) == '2';
      assert Digits(12) == Digits(1) + "2";
      assert Digits(126) == Digits(12) + "6";
      assert Digits(1267) == Digits(126) + "7";
    }
    assert (Decimal(1267) + "n")[..4] == "1267";
    assert Decimal(1267) + "n" == "1267n";
    assert Render(BigInt(1267)) == Ok("1267n");
  }

  /** The BigInt 1267 renders as `1267n` (src/data/challenges/math.ts, line 92). */
  lemma BigIntExample()
    ensures Render(BigInt(1267)) == Ok("1267n")
  {
    StringsShadowOtherValues();
  }

  // Literal values here would make the solver unfold everything at once.

  /** The defined member of the example below, written out. */
  lemma IndexMemberText(m: (string, Value))
    requires m == ("index", Num(-1))
    ensures SerializeMember(m) == Some(["\"index\":-1"])
  {
    assert Decimal(-1) == "-1" by {
      assert DigitChar(1) == '1';
    }
    assert Serialize(m.1) == Text("-1");
    assert EscapeBody(m.0) == "index";
    assert Quote(m.0) + ":" + "-1" == "\"index\":-1";
  }

  /** The undefined member contributes no text. */
  lemma UndefinedMemberDropped(ms: seq<(string, Value)>)
    requires ms == [("value", Undefined), ("index", Num(-1))]
    ensures SerializeMembers(ms) == Some(["\"index\":-1"])
  {
    var tail := ms[1..];
    assert tail[1..] == [];
    IndexMemberText(tail[0]);
    assert SerializeMembers(tail[1..]) == Some([]);
    assert SerializeMember(tail[0]).value + SerializeMembers(tail[1..]).value == ["\"index\":-1"];
    assert SerializeMembers(tail) == Some(["\"index\":-1"]);
    assert SerializeMember(ms[0]) == Some([]);
    assert SerializeMember(ms[0]).value + SerializeMembers(tail).value == ["\"index\":-1"];
  }

  /** An object with an undefined member renders without it
      (src/data/challenges/arrays.ts, line 128). */
  lemma UndefinedMemberExample(ms: seq<(string, Value)>)
    requires ms == [("value", Undefined), ("index", Num(-1))]
    ensures Render(Obj(ms)) == Ok("{\"index\":-1}")
  {
    UndefinedMemberDropped(ms);
    assert Join(["\"index\":-1"], ",") == "\"index\":-1";
    assert "{" + "\"index\":-1" + "}" == "{\"index\":-1}";
    assert Serialize(Obj(ms)) == Text("{\"index\":-1}");
  }

  /** Arrays render compactly (src/data/challenges/arrays.ts, line 31). */
  lemma CompactArrayExample()
    ensures Render(Arr([Num(2), Num(4), Num(6)])) == Ok("[2,4,6]")
  {
    var s2 := [Num(6)];
    var s1 := [Num(4), Num(6)];
    var s0 := [Num(2), Num(4), Num(6)];
    assert s2[1..] == [] && s1[1..] == s2 && s0[1..] == s1;
    assert s2[0] == Num(6) && s1[0] == Num(4) && s0[0] == Num(2);
    assert Decimal(6) == "6" && Decimal(4) == "4" && Decimal(2) == "2" by {
      assert DigitChar(6) == '6' && DigitChar(4) == '4' && DigitChar(2) == '2';
    }
    assert SerializeElement(s2[0]) == Some("6");
    assert SerializeElement(s1[0]) == Some("4");
    assert SerializeElement(s0[0]) == Some("2");
    assert SerializeElements(s2[1..]) == Some([]);
    assert [SerializeElement(s2[0]).value] + SerializeElements(s2[1..]).value == ["6"];
    assert SerializeElements(s2) == Some(["6"]);
    assert [SerializeElement(s1[0]).value] + SerializeElements(s1[1..]).value == ["4", "6"];
    assert SerializeElements(s1) == Some(["4", "6"]);
    assert [SerializeElement(s0[0]).value] + SerializeElements(s0[1..]).value == ["2", "4", "6"];
    assert SerializeElements(s0) == Some(["2", "4", "6"]);
    assert Join(["2", "4", "6"], ",") == "2,4,6" by {
      assert Join(["6"], ",") == "6";
      assert ["2", "4", "6"][1..] == ["4", "6"];
      assert ["4", "6"][1..] == ["6"];
    }
    assert Serialize(Arr(s0)) == Text("[2,4,6]");
  }
}

=== FILE: wrappers.dfy ===
/** Optional values and fallible results, the shapes the modelled code uses for
    `undefined`/`null` returns and for caught exceptions. */
module Wrappers {

  datatype Option<+T> = None | Some(value: T) {
    function GetOr(default: T): T {
      match this
      case Some(v) => v
      case None => default
    }
  }

  datatype Result<+T, +E> = Ok(value: T) | Err(error: E)
}
